=== FILE: README.md ===
# RichTable page-window engine in Dafny

This project models the page-window engine of RichTable, a paginated table
component for Vaadin 6. Its core is `PageContainerProvider`. The provider
hands out page views of an indexed source container. A page view is a
`ProxyPageContainer`: a copy of the source's schema and of one window of
its rows. Two `DataSynchronizer` listeners keep values flowing between each
view and the source. The provider also forwards hiding, showing and
sorting, and the views forward their structural mutators to the source.

On top of that sit the rules of `RichTable` itself:

- the `Paginator`: clamping the requested page, navigating, parsing the
  "go to page" text, changing the page size, and enabling the buttons;
- the `RowHider`: the hidden-row counter and the caption of its button;
- the table glue: `setPaginated`, `setContainerDataSource`,
  `initializePageProvider` and `sort`.

Everything is immutable data and pure functions. Each Java exception that
escapes an operation becomes an explicit fault value.

Modules, one per component:

- `Base`: ids, values (`Null` or an object with `equals`), `Option`, `Result`,
  and the faults the Java code can raise.
- `Containers`: an in-memory IndexedContainer. It holds ordered property ids
  with types and ordered items, each an id with a value per property. Vaadin's
  `IndexedContainer` is not part of this model. Only the behaviour the provider
  relies on is modelled: lookup by id, cell writes, add/remove of items and
  properties, and refusal of duplicates.
- `Window`: page count, window bounds, and page availability.
- `Sync`: the `DataSynchronizer`'s null-safe compare-and-write.
- `PageView`: building a page view (copying a window), and hiding rows locally.
- `PageProvider`: the provider's state machine. It keeps every view it has
  built, because a view's view → source synchronizer is never removed. It also
  records which views have their source → view synchronizer registered.
- `Text`: Java's `trim`, `Integer.toString`, and the page-text parse.
- `RichTable`: the paginator, the row hider, and the table operations.

## Model

| member | source | states |
|---|---|---|
| `Window.NumberOfPages` | src/pl/com/kuznik/PageContainerProvider.java:48-54 | The page count is at least 1. It is exactly 1 for a non-positive page size or an empty source. Otherwise n pages are the fewest that hold all rows: (n-1)·k < size ≤ n·k. |
| `Window.NumberOfPagesIsCeiling` | src/pl/com/kuznik/PageContainerProvider.java:52 | The quotient-plus-remainder count equals the independent ceiling formula (size + k - 1) / k. |
| `Window.ValidPageWindow` | src/pl/com/kuznik/PageContainerProvider.java:154-160 | An available non-negative page with k > 0 covers a window inside the source of min(k, size - first) rows. The window is empty only for an empty source. |
| `Window.NonPositivePageSizeWindow` | src/pl/com/kuznik/PageContainerProvider.java:49-50 | With k ≤ 0, the only available non-negative page is page 0, and its window is empty. |
| `Window.PastLastPageStartsPastEnd` | src/pl/com/kuznik/PageContainerProvider.java:64-66 | A page that is not available starts at or past the end of the source. |
| `Window.NonNegativePageWindow` | src/pl/com/kuznik/PageContainerProvider.java:154-160 | For a non-negative page, a window starting before position 0 is empty, whatever the page size. |
| `Sync.Differs` | src/pl/com/kuznik/PageContainerProvider.java:99-106 | The null-tested `equals` comparison is exactly value inequality. |
| `Sync.Propagate` | src/pl/com/kuznik/PageContainerProvider.java:97-107 | An item absent from the destination is a no-op. A property absent from it is a fault. Otherwise the cell ends holding v and every other cell is unchanged. The destination changes iff the item is there and its value differed. Schema, ids and well-formedness are kept. |
| `Sync.EchoIsNoOp` | src/pl/com/kuznik/PageContainerProvider.java:97-107 | Delivering the same change a second time changes nothing. This is what ends the view → source → view round trip. |
| `Sync.NullSafeCases` | src/pl/com/kuznik/PageContainerProvider.java:100-105 | Null onto null is a no-op. Null versus non-null, in either order, is a write. |
| `PageView.CopyRow` | src/pl/com/kuznik/PageContainerProvider.java:138-145 | The copied item has the view's properties. It takes the source value for each source property and null for the rest. A source property the view lacks is a fault. |
| `PageView.KeysBefore` | src/pl/com/kuznik/PageContainerProvider.java:141-144 | The source properties the copy loop gets through before a fault: the longest prefix of the source's properties that the view has. It is shorter than the whole list iff the view lacks some source property, and then the next property is the first one missing. |
| `PageView.PartialRow` | src/pl/com/kuznik/PageContainerProvider.java:138-145 | The item a faulting copy leaves in the view: it keeps the source item's id and has the view's properties. It holds the source values of the properties copied before the fault and null for the rest. |
| `PageView.CopyWindow` | src/pl/com/kuznik/PageContainerProvider.java:147-152 | Copying positions [start, stop) yields stop - start rows carrying the ids of those source positions, in order. A position outside the source is an IndexOutOfBounds fault. |
| `PageView.CopyWindowIsSlice` | src/pl/com/kuznik/PageContainerProvider.java:147-152 | With the source's own schema, the copy of [s, t) is exactly the source slice rows[s..t]. |
| `PageView.CopyWindowDistinct` | src/pl/com/kuznik/PageContainerProvider.java:147-152 | The rows copied from a source with distinct ids have distinct ids. |
| `PageView.CopyWindowFailsOnlyAtStart` | src/pl/com/kuznik/PageContainerProvider.java:147-152 | Inside the source's bounds, a copy fails iff the start is negative or some source property is missing from the view. With a non-negative start, the failure is already in the copy of the first item. |
| `PageView.Materialize` | src/pl/com/kuznik/PageContainerProvider.java:125-130 | A new view has the source's property ids and types and exactly the window's rows in source order. It fails only for a negative first index of a non-empty window. Its result is well-formed. |
| `PageView.HideRows` | src/pl/com/kuznik/PageContainerProvider.java:162-166 | Hiding keeps exactly the view's rows whose ids were not given, in order. The schema is unchanged. |
| `PageView.HideRowsIdempotent` | src/pl/com/kuznik/PageContainerProvider.java:162-166 | Hiding the same ids twice equals hiding them once. |
| `PageView.HideAbsentIsNoOp` | src/pl/com/kuznik/PageContainerProvider.java:162-166 | Ids the view does not hold have no effect. |
| `PageView.Refill` | src/pl/com/kuznik/PageContainerProvider.java:168-171 | Refilling a view removes all its items and copies the window in again. It faults iff the window is non-empty and either starts before 0 or needs a property the view lacks. A negative start leaves the view empty. A missing property leaves exactly the window's first item, partly copied. Otherwise the view holds the ids of the window in order, and with the source's schema it equals the source slice. |
| `PageProvider.NewProvider` | src/pl/com/kuznik/PageContainerProvider.java:22-25 | A new provider keeps the given source and page size. It has no view, no registered synchronizer and page 0, and satisfies the provider invariant. |
| `PageProvider.NewDefaultProvider` | src/pl/com/kuznik/PageContainerProvider.java:27-29 | The one-argument constructor gives the default page size of 100 over the given source, with no view and page 0. |
| `PageProvider.LastPageNumber` | src/pl/com/kuznik/PageContainerProvider.java:44-46 | The last page number is at least 1, and the last page is the one that holds the source's last row. |
| `PageProvider.RemoveParentListener` | src/pl/com/kuznik/PageContainerProvider.java:212-216 | Only the given view's source → view synchronizer is removed, and only from a notifying source. Nothing else changes. |
| `PageProvider.GetPageContainer` | src/pl/com/kuznik/PageContainerProvider.java:31-42 | currentPageNumber is overwritten with pageNumber - 1 before validation. A page past the last returns null with views and listeners untouched. A page ≥ 1 never faults. An opened page is a new view with the source's schema and exactly the window rows; it replaces the old view's registration, and registers its own only on a notifying source. |
| `PageProvider.OpenedPageSize` | src/pl/com/kuznik/PageContainerProvider.java:31-42 | A valid page p opens a view of min(k, size - (p-1)·k) rows. |
| `PageProvider.OpenedViewHoldsSourceItems` | src/pl/com/kuznik/PageContainerProvider.java:125-130 | Every item of a freshly opened view is an item of the source. |
| `PageProvider.HideRowsOf` | src/pl/com/kuznik/PageContainerProvider.java:56-58 | Only the current view loses the given rows. The source and every other view are unchanged. With no page open the call faults. |
| `PageProvider.ShowHiddenRows` | src/pl/com/kuznik/PageContainerProvider.java:168-171 | The current view is emptied and refilled from the window of currentPageNumber; other views are unchanged. A fault is returned with the state the copy reached: an empty view for a negative start, and otherwise the window's first item, partly copied. On success the view holds exactly the window's ids in order. When its schema is the source's, it succeeds iff a fresh materialisation does, and then equals it. |
| `PageProvider.HideThenShowIsFreshOpen` | src/pl/com/kuznik/PageContainerProvider.java:56-62 | Hiding and then showing gives the current view a fresh copy of its window. |
| `PageProvider.ShowAfterRejectedRequestEmptiesView` | src/pl/com/kuznik/PageContainerProvider.java:31-35 | A rejected page request still moves currentPageNumber. A later show then empties the old view. |
| `PageProvider.DispatchSort` | src/pl/com/kuznik/PageContainerProvider.java:68-78 | A sortable source is asked to sort by exactly one key in one direction. A null source is left alone. Any other source is refused. |
| `PageProvider.Sort` | src/pl/com/kuznik/PageContainerProvider.java:68-78 | On a sortable source, the row at position j becomes the old row at perm[j]. Keys, types, flags, views, registrations and currentPageNumber are unchanged. Otherwise it faults with UnsupportedSort. |
| `PageProvider.SortKeepsEveryRow` | src/pl/com/kuznik/PageContainerProvider.java:68-78 | Sorting loses no row: every row of the source before the sort is in it after. |
| `PageProvider.ViewRemoveItem` | src/pl/com/kuznik/PageContainerProvider.java:173-176 | `removeItem` on a view goes to the source only, and answers whether the source held the item. The source keeps exactly its other rows, in their order (`Without`, whose order `Containers.WithoutOfJoin` states), and its schema. The views, including this one, are unchanged. |
| `PageProvider.ViewRemoveAllItems` | src/pl/com/kuznik/PageContainerProvider.java:184-187 | `removeAllItems` on a view empties the source only. The source keeps its keys, types and flags, and the views are unchanged. |
| `PageProvider.ViewAddItem` | src/pl/com/kuznik/PageContainerProvider.java:197-203 | The view takes the item only while it holds fewer than itemsPerPage rows. It then appends it with null values after its old rows; otherwise the view is unchanged. The source always gets the request, appending a null-valued item when it is new, and its answer is returned. Schemas, the other views and the provider's other state are unchanged. |
| `PageProvider.ViewAddProperty` | src/pl/com/kuznik/PageContainerProvider.java:205-210 | The property is appended to the view and to the source when each lacks it. Each records the given type for it, and the existing items of each then read the default for it. Every other cell and the item ids are unchanged. The answer is the source's. Other views are unchanged. |
| `PageProvider.ViewRemoveProperty` | src/pl/com/kuznik/PageContainerProvider.java:178-182 | The property is removed from the view and from the source, with its type. The other properties stay in their order (`Erase`, whose order `Containers.EraseAt` states). Every item then reads nothing for it, while every other cell and the item ids are unchanged. The answer is the source's. Other views are unchanged. |
| `PageProvider.NotifyViews` | src/pl/com/kuznik/PageContainerProvider.java:132-134 | Exactly the views with a registered source → view synchronizer receive the change, and the others are unchanged. A fault occurs iff one of them lacks the property while holding the item. |
| `PageProvider.NotifyViewsFrame` | src/pl/com/kuznik/PageContainerProvider.java:132-134 | The notification changes no view's property list or item ids, and no cell other than the changed one. |
| `PageProvider.NotifyRegistered` | src/pl/com/kuznik/PageContainerProvider.java:132-134 | The source's change event changes only registered views that hold the item, each of which then reads the value, and no other cell, property list or item list of any view. It faults iff a registered view holds the item but lacks the property. |
| `PageProvider.ForwardEdit` | src/pl/com/kuznik/PageContainerProvider.java:131-134 | The view → source synchronizer writes the value into the source iff it differs there, touching no other cell. A changed notifying source then passes it to every registered view holding the item; otherwise the views stay as given. No view's other cells move. |
| `PageProvider.EditView` | src/pl/com/kuznik/PageContainerProvider.java:131-134 | An edit of view i stores v in the view, and in the source when the source holds the item. The source changes iff its value differed. The source and every view keep their properties and their item ids in order. Views that are neither i nor registered are untouched. |
| `PageProvider.EditViewReachesRegistered` | src/pl/com/kuznik/PageContainerProvider.java:131-134 | An edit through any view that changes a notifying source reaches every registered view holding the item. |
| `PageProvider.EditViewFrame` | src/pl/com/kuznik/PageContainerProvider.java:131-134 | An edit through a view moves no other cell of any view. |
| `PageProvider.SourceWrite` | src/pl/com/kuznik/PageContainerProvider.java:132-135 | A write into the source reaches exactly the registered views that hold the item. The source and every view keep their properties and their item ids in order, and no other cell of the source or of any view moves. |
| `PageProvider.SecondIdenticalEditLeavesSource` | src/pl/com/kuznik/PageContainerProvider.java:104-106 | An edit of an item and property the view holds succeeds when the source and the registered views know the property. Repeating it leaves the source as the first edit left it. |
| `PageProvider.EditReachesSource` | src/pl/com/kuznik/PageContainerProvider.java:131 | An edit through any view, current or not, of an item and property the source holds is written into the source. |
| `PageProvider.RetainedViewStillWritesThrough` | src/pl/com/kuznik/PageContainerProvider.java:36-38 | Opening page a, then page b: the page-a view is neither current nor registered for source changes, yet an edit of any item it holds still reaches the source. |
| `Text.LeadingDigits` | src/pl/com/kuznik/RichTable.java:314 | The result is the longest all-digit prefix: it is followed by a non-digit or by the end. |
| `Text.NatToString` | src/pl/com/kuznik/RichTable.java:305 | The decimal form is all digits with no leading zero, and its digits read back as the number. |
| `Text.NatTextParses` | src/pl/com/kuznik/RichTable.java:312-318 | The decimal text of a number within int range parses back to it, with the code as written and with the corrected parse. |
| `Text.LeadingDigitsOfJoin` | src/pl/com/kuznik/RichTable.java:314 | A digit run followed by a non-digit splits off exactly that run. |
| `Text.TrimLeftIsSuffix` | src/pl/com/kuznik/RichTable.java:314 | Trimming the front leaves a suffix of the text. |
| `Text.ParseLeadingRun` | src/pl/com/kuznik/RichTable.java:312-318 | A trimmed text that starts with a digit run within int range parses to that run's value, with the code as written and with the corrected parse. |
| `Text.ParsePageTextAsWritten` | src/pl/com/kuznik/RichTable.java:312-318 | The code as written fails exactly for a non-empty trimmed text with no digit at all (an uncaught ArrayIndexOutOfBoundsException). Every other text parses. |
| `Text.NoDigitTextThrows` | src/pl/com/kuznik/RichTable.java:314 | "abc" makes the parse as written throw, while the corrected parse keeps the current page. |
| `Text.ParsePageToGoText` | src/pl/com/kuznik/RichTable.java:312-318 | The result is the current page or the value of the leading digit run of the trimmed text, within int range. An empty run keeps the current page. |
| `Text.CorrectedParseAgrees` | src/pl/com/kuznik/RichTable.java:312-318 | Wherever the code as written returns, the corrected parse returns the same page. |
| `RichTable.ClampPage` | src/pl/com/kuznik/RichTable.java:274-280 | The clamped page lies in [1, last], and a page already in range is kept. |
| `RichTable.ClampIsNearest` | src/pl/com/kuznik/RichTable.java:274-280 | The clamp picks the unique page of [1, last] nearest to the request. |
| `RichTable.PageText` | src/pl/com/kuznik/RichTable.java:304-306 | The page text starts with a digit for a non-negative page and ends with a digit. |
| `RichTable.PageTextParsesBack` | src/pl/com/kuznik/RichTable.java:304-318 | "<current> / <last>" parses back to current, both with the code as written and with the corrected parse. |
| `RichTable.PageTextEndsWithLast` | src/pl/com/kuznik/RichTable.java:304-306 | The page text is the current page, " / ", then the last page in decimal. That last part parses back to the last page. |
| `RichTable.CurrentDataSource` | src/pl/com/kuznik/RichTable.java:115 | The table's data source is absent exactly when it shows nothing. A shown page view counts as a well-formed indexed container. |
| `RichTable.SetPage` | src/pl/com/kuznik/RichTable.java:273-285 | The current page becomes 1 below range, the last page above it, and the request otherwise. The table then shows exactly that page's window. The view shown is the provider's current view, and the provider's page number is the current page less one. The hidden-row counter is reset. |
| `RichTable.FirstPage` | src/pl/com/kuznik/RichTable.java:299-301 | First goes to page 1. |
| `RichTable.PreviousPage` | src/pl/com/kuznik/RichTable.java:291-293 | Previous moves one page back, and stays on page 1. |
| `RichTable.NextPage` | src/pl/com/kuznik/RichTable.java:287-289 | Next moves one page on, and stays on the last page. |
| `RichTable.LastPage` | src/pl/com/kuznik/RichTable.java:295-297 | Last goes to the last page. |
| `RichTable.GoToPage` | src/pl/com/kuznik/RichTable.java:347-349 | The corrected GO button opens the typed page number, clamped into range, so "0" opens page 1 and a number past the end opens the last page. A text without a leading digit run stays on the current page, clamped into range. |
| `RichTable.GoToPageAsWritten` | src/pl/com/kuznik/RichTable.java:312-318 | The GO button as written throws, leaving the table as it was, iff the trimmed text is non-empty and holds no digit. Otherwise it ends exactly as the corrected button does. |
| `RichTable.GoToNoDigitTextThrows` | src/pl/com/kuznik/RichTable.java:314 | On "abc" the button as written throws, while the corrected one stays on the current page. |
| `RichTable.PaginatorControls` | src/pl/com/kuznik/RichTable.java:237-250 | First and previous are enabled iff the page is not 1. Next and last are enabled iff it is not the last page. The text is "<current> / <last>". |
| `RichTable.ButtonsEnabledIffTheyMove` | src/pl/com/kuznik/RichTable.java:243-249 | On a page in range, each navigation button is enabled exactly when pressing it changes the page. |
| `RichTable.GoToShownTextStays` | src/pl/com/kuznik/RichTable.java:347-349 | Pressing GO on the text as shown re-opens the current page. |
| `RichTable.NotifyDataSourceChanged` | src/pl/com/kuznik/RichTable.java:352-355 | A data-source change re-opens the current page, clamped into the pages that exist now, and resets the hidden-row counter. |
| `RichTable.InitializePageProvider` | src/pl/com/kuznik/RichTable.java:179-188 | originalContainer is overwritten even when the guard then throws. A container that is not indexed, or null, throws. An indexed one gets a new provider with the paginator's page size, and its current page is shown iff that page exists. |
| `RichTable.SetContainerDataSource` | src/pl/com/kuznik/RichTable.java:126-134 | A paginated table paginates the new container. An unpaginated table ends up showing a page of the provider's old source. |
| `RichTable.SetPaginated` | src/pl/com/kuznik/RichTable.java:111-120 | An unchanged flag is a no-op. Turning pagination on paginates what the table shows. Turning it off shows originalContainer. |
| `RichTable.ChangeItemsPerPage` | src/pl/com/kuznik/RichTable.java:260-270 | The same page size is a no-op. A new size resets to page 1. A paginated table re-paginates originalContainer with the new size. An unpaginated table shows page 1 of the old provider, which keeps its old source and page size. |
| `RichTable.SortTable` | src/pl/com/kuznik/RichTable.java:136-144 | A sortable source is rearranged by its permutation, and the current page is re-opened over the sorted rows. A non-sortable source throws UnsupportedOperationException and changes nothing. |
| `RichTable.ShowCaption` | src/pl/com/kuznik/RichTable.java:406-408 | The caption is "Show hidden", followed by a suffix iff the counter is positive. |
| `RichTable.CaptionCount` | src/pl/com/kuznik/RichTable.java:407 | The suffix is " (n)" with n in decimal. |
| `RichTable.ShowCaptionInjective` | src/pl/com/kuznik/RichTable.java:406-408 | Different positive counts give different captions. |
| `RichTable.HiderUI` | src/pl/com/kuznik/RichTable.java:455-459 | Hide is enabled iff a non-empty collection is selected. Show is enabled iff the counter is positive. |
| `RichTable.HideSelected` | src/pl/com/kuznik/RichTable.java:434-443 | A collection selection is removed from the provider's current view, and its size is added to the counter. A non-collection selection changes nothing. With no page open the call throws. |
| `RichTable.ShowHidden` | src/pl/com/kuznik/RichTable.java:445-453 | It acts only while the counter is positive. The current view is refilled with exactly the ids of the current window, and the counter is reset to 0. A fault escapes with the counter kept and with the view as the copy left it: empty for a negative start, otherwise holding only the window's first item. |
| `RichTable.HideThenShowRestoresView` | src/pl/com/kuznik/RichTable.java:434-453 | Hide and then show leaves the counter at 0 and the view equal to a fresh copy of its window. |
| `RichTable.HideTwiceCountsTwice` | src/pl/com/kuznik/RichTable.java:402-404 | Hiding the same rows twice counts them twice, though the view loses them once. |
| `RichTable.PageAndSourceChangesResetCounter` | src/pl/com/kuznik/RichTable.java:461-473 | A page change and a data-source change reset the counter. The show button is then disabled and its caption is plain. |
| `RichTable.NewTable` | src/pl/com/kuznik/RichTable.java:45-65 | A new table is paginated with page size 10 and shows page 1, an empty view, of the superclass's empty IndexedContainer. |

## Left out

- Integer width: page numbers, page sizes, window indices and the hidden-row counter are unbounded integers. The Java `int` arithmetic (`page * itemsPerPage`, `currentPage + 1`, `hiddenRowsCount += count`) would wrap past 2^31 - 1. Only the page-text parse bounds its result to `int` range.
- Reflection in `DataSynchronizer` (PageContainerProvider.java:91-96) and its exception translation. A change event is the explicit triple (item id, property id, value).
- `addItem()` without an id (PageContainerProvider.java:189-195). The fresh id comes from Vaadin's `IndexedContainer`, which is not part of this model.
- The order of `HashSet` listener sets. Registered views are notified in ascending position; a provider never has more than one registered.
- Listeners of a discarded provider. When `initializePageProvider` replaces the provider, the old current view's synchronizers stay registered on the old source. The model drops the old provider with them.
- PageProvider.SourceWrite: on a fault, the model returns only the fault. The Java source has already taken the value before a registered view's synchronizer fails, and that partial state is not kept.
- PageProvider.NotifyRegistered: on a fault, the model returns only the fault. Registered views notified before the failing one have already taken the value in Java.
- PageProvider.ForwardEdit: on a fault, the model returns only the fault. The source, and any view notified before the failing one, have already taken the value in Java.
- PageProvider.ViewAddProperty: in Vaadin, adding a property with a non-null default to a view writes the default into each existing item through `setValue`, which fires the view → source synchronizer. That write faults when the source holds the item but lacks the property, and is a plain write when the source has it. The model adds the property to both containers without these writes, because Vaadin's `IndexedContainer` is not part of this model.
- RichTable.GoToPage: it uses the corrected parse. For a non-empty text with no digit, such as "abc", the code throws ArrayIndexOutOfBoundsException instead; `RichTable.GoToPageAsWritten` models that and is listed under Findings.
- PageProvider.EditView: on a fault, the model returns only the fault. The Java view has already taken the value before the synchronizer fails, and that partial state is not kept.
- PageProvider.GetPageContainer: requires a well-formed source, which is `IndexedContainer`'s own invariant. The provider invariant also carries well-formed views.
- PageProvider.Sort: the order the source's sort produces is a permutation given as a parameter. Vaadin's sorting algorithm is not part of this model.
- RichTable.SortTable: requires a paginated table. The unpaginated branch calls the Table superclass's `sort`, which is not part of this model.
- The Table superclass: a null data source is shown as nothing. Rendering, `disableContentRefreshing`/`enableContentRefreshing`, column collapsing and reordering, and selection are not modelled. The selection is a parameter of `HideSelected` and `HiderUI`: a sequence listing each selected id once, standing for the multi-select table's set value. Clearing it after hiding is not modelled.
- Vaadin widget plumbing: layouts, buttons, the combo box, focus selection ranges (`getCurrentPageTextLength`), notifications, `attach`, `setSelectable`, and `ControlPanel`.
- The GO button's text: the text field's value is a parameter of `GoToPage`.
- `RowEditor` (RichTable.java:476-561). It is double-click and shortcut UI around framework field commit/discard.
- Column state save/restore (RichTable.java:146-160). It is presentation persistence.
- Values are opaque objects compared with `equals`. They are modelled as null or an integer payload with structural equality. Property types are names and are not checked.
- Three behaviours of the code a reader may not expect:
  - A page number of 0 or below is not rejected: there is no lower bound. With a positive page size the copy then faults on a negative index. This happens after the old view's registration has already been removed.
  - The provider's `sort` does not re-open the page. Only `RichTable.sort` does, through the data-source change.
  - The view → source synchronizer is never removed, so an old view keeps writing into the source.

## Findings

| source | as written | input that shows it | evidently intended | confidence | as-written member | corrected member |
|---|---|---|---|---|---|---|
| src/pl/com/kuznik/RichTable.java:314 | `text.trim().split("[^0-9]")[0]`. Java's `split` drops trailing empty strings, so a non-empty text with no digit splits into an empty array, and `[0]` throws ArrayIndexOutOfBoundsException. Only NumberFormatException is caught. | the page text "abc" | any unparsable text keeps the current page, as the catch clause does for "" or "a1" | medium, not executed | `Text.ParsePageTextAsWritten` and `RichTable.GoToPageAsWritten` (counterexamples `Text.NoDigitTextThrows`, `RichTable.GoToNoDigitTextThrows`) | `Text.ParsePageToGoText`, used by `RichTable.GoToPage`; `Text.CorrectedParseAgrees` proves it agrees wherever the code returns |

=== FILE: base.dfy ===
/** Shared vocabulary: row ids, property ids, cell values, and the
    failure-carrying wrappers used for the Java exceptions and null returns. */
module Base {

  /** An item id of a container (an opaque, equality-comparable object). */
  type Id = int

  /** A property id (a column of the container). */
  type Key = string

  /** The declared type of a property, by name. */
  type TypeName = string

  /** A cell value: Java `null` or a non-null object compared with `equals`. */
  datatype Value = Null | Obj(payload: int)

  datatype Option<+T> = None | Some(value: T)

  /** The exceptions the modelled code can raise. */
  datatype Fault =
    | NoOpenPage                          // NullPointerException: no page container yet
    | IndexOutOfBounds(index: int)        // getIdByIndex with a bad position
    | MissingItem(id: Id)                 // getItem returned null and was dereferenced
    | MissingProperty(id: Id, key: Key)   // getItemProperty returned null and was dereferenced
    | UnsupportedSort                     // the source is not Container.Sortable
    | NotIndexed                          // the data source is not Container.Indexed
    | EmptySplit                          // split(...)[0] on an empty array

  datatype Result<+T> = Ok(value: T) | Err(fault: Fault)

  /** The largest Java `int`. */
  const MaxInt: int := 0x7fff_ffff

  function Min(a: int, b: int): int { if a <= b then a else b }
}

=== FILE: containers.dfy ===
/** An in-memory indexed container in the manner of Vaadin's IndexedContainer:
    an ordered list of property ids with their declared types, and an ordered
    list of items, each an id with a value per property.  Both the source
    collection and every page view are containers. */
module Containers {
  import opened Base

  datatype Row = Row(id: Id, fields: map<Key, Value>)

  datatype Container = Container(keys: seq<Key>, types: map<Key, TypeName>, rows: seq<Row>)

  function KeySet(c: Container): set<Key> { set k | k in c.keys }

  predicate DistinctKeys(keys: seq<Key>) {
    forall i, j :: 0 <= i < j < |keys| ==> keys[i] != keys[j]
  }

  predicate DistinctIds(rows: seq<Row>) {
    forall i, j :: 0 <= i < j < |rows| ==> rows[i].id != rows[j].id
  }

  /** The container's own invariant: property ids are distinct and typed,
      item ids are distinct, and every item holds exactly the container's properties. */
  predicate Wf(c: Container) {
    && DistinctKeys(c.keys)
    && c.types.Keys == KeySet(c)
    && DistinctIds(c.rows)
    && forall i :: 0 <= i < |c.rows| ==> c.rows[i].fields.Keys == KeySet(c)
  }

  function Ids(rows: seq<Row>): (r: seq<Id>)
    ensures |r| == |rows|
  {
    seq(|rows|, i requires 0 <= i < |rows| => rows[i].id)
  }

  lemma IdsOfJoin(a: seq<Row>, b: seq<Row>)
    ensures Ids(a + b) == Ids(a) + Ids(b)
  {
    assert forall i :: 0 <= i < |a| + |b| ==> Ids(a + b)[i] == (Ids(a) + Ids(b))[i];
  }

  predicate HasItem(rows: seq<Row>, id: Id) {
    exists i :: 0 <= i < |rows| && rows[i].id == id
  }

  /** The position of the first item with the given id (`indexOfId`). */
  function IndexOf(rows: seq<Row>, id: Id): (r: Option<nat>)
    ensures r.Some? <==> HasItem(rows, id)
    ensures r.Some? ==> r.value < |rows| && rows[r.value].id == id
    ensures r.Some? ==> forall j :: 0 <= j < r.value ==> rows[j].id != id
  {
    if |rows| == 0 then None
    else if rows[0].id == id then Some(0)
    else
      match IndexOf(rows[1..], id)
      case None =>
        assert forall j :: 1 <= j < |rows| ==> rows[j] == rows[1..][j - 1];
        None
      case Some(j) => Some(j + 1)
  }

  lemma {:induction false} IndexOfSameIds(a: seq<Row>, b: seq<Row>, id: Id)
    requires Ids(a) == Ids(b)
    ensures IndexOf(a, id) == IndexOf(b, id)
    decreases |a|
  {
    assert |a| == |Ids(a)| == |Ids(b)| == |b|;
    if |a| > 0 {
      assert a[0].id == Ids(a)[0] == Ids(b)[0] == b[0].id;
      assert Ids(a[1..]) == Ids(a)[1..];
      assert Ids(b[1..]) == Ids(b)[1..];
      IndexOfSameIds(a[1..], b[1..], id);
    }
  }

  /** A row's value for a property; a missing entry reads as null. */
  function ValueAt(row: Row, key: Key): Value {
    if key in row.fields then row.fields[key] else Null
  }

  /** `getItem(id).getItemProperty(key).getValue()`, or None when the item or the property is absent. */
  function Read(c: Container, id: Id, key: Key): Option<Value> {
    match IndexOf(c.rows, id)
    case None => None
    case Some(i) => if key in c.keys then Some(ValueAt(c.rows[i], key)) else None
  }

  /** Overwrite one cell of the item at position i. */
  function SetCell(c: Container, i: nat, key: Key, v: Value): (r: Container)
    requires i < |c.rows|
    ensures r.keys == c.keys && r.types == c.types
    ensures Ids(r.rows) == Ids(c.rows)
    ensures r.rows[i].fields == c.rows[i].fields[key := v]
    ensures forall j :: 0 <= j < |c.rows| && j != i ==> r.rows[j] == c.rows[j]
    ensures key in KeySet(c) && Wf(c) ==> Wf(r)
  {
    c.(rows := c.rows[i := Row(c.rows[i].id, c.rows[i].fields[key := v])])
  }

  /** Exactly the cell at (the item at position i, key) changes. */
  lemma ReadAfterSetCell(c: Container, i: nat, key: Key, v: Value, id': Id, key': Key)
    requires i < |c.rows|
    ensures Read(SetCell(c, i, key, v), id', key') ==
      if IndexOf(c.rows, id') == Some(i) && key' == key && key in c.keys then Some(v)
      else Read(c, id', key')
  {
    IndexOfSameIds(SetCell(c, i, key, v).rows, c.rows, id');
  }

  /** `getItem(id).getItemProperty(key).setValue(v)` on a container: a
      missing item or property is a null dereference; otherwise exactly that
      cell changes. */
  function SetValue(c: Container, id: Id, key: Key, v: Value): (r: Result<Container>)
    ensures !HasItem(c.rows, id) ==> r == Err(MissingItem(id))
    ensures HasItem(c.rows, id) && key !in c.keys ==> r == Err(MissingProperty(id, key))
    ensures r.Ok? <==> HasItem(c.rows, id) && key in c.keys
    ensures r.Ok? ==> r.value.keys == c.keys && r.value.types == c.types
    ensures r.Ok? ==> Ids(r.value.rows) == Ids(c.rows)
    ensures r.Ok? ==> Read(r.value, id, key) == Some(v)
    ensures r.Ok? ==> forall id', key' :: id' != id || key' != key ==> Read(r.value, id', key') == Read(c, id', key')
    ensures r.Ok? && Wf(c) ==> Wf(r.value)
  {
    match IndexOf(c.rows, id)
    case None => Err(MissingItem(id))
    case Some(n) =>
      if key !in c.keys then Err(MissingProperty(id, key))
      else
        var d := SetCell(c, n, key, v);
        forall id', key' ensures Read(d, id', key') ==
          if IndexOf(c.rows, id') == Some(n) && key' == key then Some(v) else Read(c, id', key')
        {
          ReadAfterSetCell(c, n, key, v, id', key');
        }
        assert key in KeySet(c);
        Ok(d)
  }

  /** The rows whose ids are not in `hidden`, in their original order. */
  function Without(rows: seq<Row>, hidden: set<Id>): (r: seq<Row>)
    ensures |r| <= |rows|
    ensures forall row :: row in r <==> row in rows && row.id !in hidden
  {
    if |rows| == 0 then []
    else
      assert forall row :: row in rows <==> row == rows[0] || row in rows[1..];
      (if rows[0].id in hidden then [] else [rows[0]]) + Without(rows[1..], hidden)
  }

  lemma {:induction false} WithoutKeepsDistinct(rows: seq<Row>, hidden: set<Id>)
    requires DistinctIds(rows)
    ensures DistinctIds(Without(rows, hidden))
    decreases |rows|
  {
    if |rows| > 0 {
      var tail := rows[1..];
      assert DistinctIds(tail) by {
        forall i, j | 0 <= i < j < |tail| ensures tail[i].id != tail[j].id {
          assert tail[i] == rows[i + 1] && tail[j] == rows[j + 1];
        }
      }
      WithoutKeepsDistinct(tail, hidden);
      var w := Without(tail, hidden);
      forall row | row in w ensures row.id != rows[0].id {
        var j :| 0 <= j < |tail| && tail[j] == row;
        assert tail[j] == rows[j + 1];
      }
      var head: seq<Row> := if rows[0].id in hidden then [] else [rows[0]];
      var r := head + w;
      forall i, j | 0 <= i < j < |r| ensures r[i].id != r[j].id {
        if i < |head| {
          assert r[j] == w[j - |head|];
          assert r[j] in w;
        } else {
          assert r[i] == w[i - |head|] && r[j] == w[j - |head|];
        }
      }
    }
  }

  lemma {:induction false} WithoutTwice(rows: seq<Row>, a: set<Id>, b: set<Id>)
    ensures Without(Without(rows, a), b) == Without(rows, a + b)
    decreases |rows|
  {
    if |rows| > 0 {
      WithoutTwice(rows[1..], a, b);
      var head: seq<Row> := if rows[0].id in a then [] else [rows[0]];
      var w := Without(rows[1..], a);
      assert Without(rows, a) == head + w;
      if head == [] {
        assert Without(rows, a) == w;
      } else {
        assert (head + w)[1..] == w;
      }
    }
  }

  /** `Without` filters each part of a joined sequence on its own, so the
      rows it keeps stay in their original order. */
  lemma {:induction false} WithoutOfJoin(a: seq<Row>, b: seq<Row>, hidden: set<Id>)
    ensures Without(a + b, hidden) == Without(a, hidden) + Without(b, hidden)
    decreases |a|
  {
    if |a| == 0 {
      assert a + b == b;
    } else {
      assert (a + b)[0] == a[0] && (a + b)[1..] == a[1..] + b;
      WithoutOfJoin(a[1..], b, hidden);
    }
  }

  /** A container holding the same properties and the rows of `c` kept by `Without`. */
  lemma WithoutKeepsWf(c: Container, hidden: set<Id>)
    requires Wf(c)
    ensures Wf(c.(rows := Without(c.rows, hidden)))
  {
    WithoutKeepsDistinct(c.rows, hidden);
    var w := Without(c.rows, hidden);
    forall i | 0 <= i < |w| ensures w[i].fields.Keys == KeySet(c) {
      assert w[i] in c.rows;
    }
  }

  /** `removeItem(id)` on an IndexedContainer: the item leaves the container, nothing else changes. */
  function RemoveItem(c: Container, id: Id): (r: (Container, bool))
    ensures r.1 <==> HasItem(c.rows, id)
    ensures r.0.keys == c.keys && r.0.types == c.types
    ensures !HasItem(r.0.rows, id)
    ensures forall row :: row in r.0.rows <==> row in c.rows && row.id != id
    ensures r.1 ==> r.0.rows == Without(c.rows, {id})
    ensures !r.1 ==> r.0 == c
    ensures Wf(c) ==> Wf(r.0)
  {
    if HasItem(c.rows, id) then
      assert Wf(c) ==> Wf(c.(rows := Without(c.rows, {id}))) by {
        if Wf(c) { WithoutKeepsWf(c, {id}); }
      }
      (c.(rows := Without(c.rows, {id})), true)
    else
      (c, false)
  }

  /** `removeAllItems()` on an IndexedContainer. */
  function RemoveAllItems(c: Container): (r: Container)
    ensures r.keys == c.keys && r.types == c.types
    ensures forall id :: !HasItem(r.rows, id)
    ensures Wf(c) ==> Wf(r)
  {
    c.(rows := [])
  }

  function NullFields(c: Container): map<Key, Value> {
    map k | k in KeySet(c) :: Null
  }

  /** `addItem(id)` on an IndexedContainer: refused for an id already present,
      otherwise a new item whose properties all read null is appended. */
  function AddItem(c: Container, id: Id): (r: (Container, bool))
    ensures r.1 <==> !HasItem(c.rows, id)
    ensures r.0.keys == c.keys && r.0.types == c.types
    ensures HasItem(r.0.rows, id)
    ensures !r.1 ==> r.0 == c
    ensures r.1 ==> |r.0.rows| == |c.rows| + 1 && r.0.rows[..|c.rows|] == c.rows
    ensures r.1 ==> forall k :: k in c.keys ==> Read(r.0, id, k) == Some(Null)
    ensures Wf(c) ==> Wf(r.0)
  {
    if HasItem(c.rows, id) then (c, false)
    else
      var rows := c.rows + [Row(id, NullFields(c))];
      assert rows[|c.rows|].id == id;
      assert forall j :: 0 <= j < |c.rows| ==> rows[j] == c.rows[j];
      assert IndexOf(rows, id) == Some(|c.rows|);
      (c.(rows := rows), true)
  }

  /** The keys with `key` taken out, in their original order. */
  function Erase(keys: seq<Key>, key: Key): (r: seq<Key>)
    ensures forall k :: k in r <==> k in keys && k != key
    ensures key !in keys ==> r == keys
    ensures DistinctKeys(keys) ==> DistinctKeys(r)
  {
    if |keys| == 0 then []
    else
      assert forall k :: k in keys <==> k == keys[0] || k in keys[1..];
      var tail := Erase(keys[1..], key);
      assert DistinctKeys(keys) ==> DistinctKeys(keys[1..]) by {
        if DistinctKeys(keys) {
          forall i, j | 0 <= i < j < |keys[1..]| ensures keys[1..][i] != keys[1..][j] {
            assert keys[1..][i] == keys[i + 1] && keys[1..][j] == keys[j + 1];
          }
        }
      }
      assert DistinctKeys(keys) ==> keys[0] !in keys[1..] by {
        if DistinctKeys(keys) {
          forall j | 0 <= j < |keys[1..]| ensures keys[1..][j] != keys[0] {
            assert keys[1..][j] == keys[j + 1];
          }
        }
      }
      var r := (if keys[0] == key then [] else [keys[0]]) + tail;
      assert DistinctKeys(keys) ==> DistinctKeys(r) by {
        if DistinctKeys(keys) && keys[0] != key {
          forall i, j | 0 <= i < j < |r| ensures r[i] != r[j] {
            assert r[j] == tail[j - 1];
            if i > 0 { assert r[i] == tail[i - 1]; }
          }
        }
      }
      r
  }

  /** In a list without repeats, erasing the key at position n closes the gap
      and keeps every other key in its place. */
  lemma {:induction false} EraseAt(keys: seq<Key>, key: Key, n: nat)
    requires DistinctKeys(keys) && n < |keys| && keys[n] == key
    ensures Erase(keys, key) == keys[..n] + keys[n + 1..]
    decreases |keys|
  {
    var tail := keys[1..];
    assert DistinctKeys(tail) by {
      forall i, j | 0 <= i < j < |tail| ensures tail[i] != tail[j] {
        assert tail[i] == keys[i + 1] && tail[j] == keys[j + 1];
      }
    }
    if n == 0 {
      assert key !in tail by {
        forall j | 0 <= j < |tail| ensures tail[j] != key {
          assert tail[j] == keys[j + 1];
        }
      }
      assert keys[n + 1..] == tail;
    } else {
      assert keys[0] != key;
      EraseAt(tail, key, n - 1);
      assert keys[..n] == [keys[0]] + tail[..n - 1];
      assert keys[n + 1..] == tail[n..];
    }
  }

  /** `addContainerProperty(key, type, default)`: refused for a property already
      present, otherwise appended with every existing item holding the default. */
  function AddProperty(c: Container, key: Key, ty: TypeName, default: Value): (r: (Container, bool))
    ensures r.1 <==> key !in c.keys
    ensures !r.1 ==> r.0 == c
    ensures r.1 ==> r.0.keys == c.keys + [key] && r.0.types == c.types[key := ty]
    ensures Ids(r.0.rows) == Ids(c.rows)
    ensures r.1 ==> forall id :: HasItem(c.rows, id) ==> Read(r.0, id, key) == Some(default)
    ensures forall id, k :: k in c.keys ==> Read(r.0, id, k) == Read(c, id, k)
    ensures Wf(c) ==> Wf(r.0)
  {
    if key in c.keys then (c, false)
    else
      var rows := seq(|c.rows|, i requires 0 <= i < |c.rows| => Row(c.rows[i].id, c.rows[i].fields[key := default]));
      var r := Container(c.keys + [key], c.types[key := ty], rows);
      assert Ids(rows) == Ids(c.rows);
      forall id ensures IndexOf(rows, id) == IndexOf(c.rows, id) {
        IndexOfSameIds(rows, c.rows, id);
      }
      assert KeySet(r) == KeySet(c) + {key};
      assert Wf(c) ==> DistinctKeys(r.keys) by {
        if Wf(c) {
          forall i, j | 0 <= i < j < |r.keys| ensures r.keys[i] != r.keys[j] {
            if j == |c.keys| { assert r.keys[i] == c.keys[i]; }
          }
        }
      }
      (r, true)
  }

  /** `removeContainerProperty(key)`: refused for an absent property, otherwise
      the property leaves the schema and every item. */
  function RemoveProperty(c: Container, key: Key): (r: (Container, bool))
    ensures r.1 <==> key in c.keys
    ensures !r.1 ==> r.0 == c
    ensures key !in r.0.keys
    ensures forall k :: k in r.0.keys <==> k in c.keys && k != key
    ensures r.0.keys == Erase(c.keys, key)
    ensures r.1 ==> r.0.types == c.types - {key}
    ensures Ids(r.0.rows) == Ids(c.rows)
    ensures forall id :: Read(r.0, id, key) == None
    ensures forall id, k :: k != key ==> Read(r.0, id, k) == Read(c, id, k)
    ensures Wf(c) ==> Wf(r.0)
  {
    if key !in c.keys then (c, false)
    else
      var rows := seq(|c.rows|, i requires 0 <= i < |c.rows| => Row(c.rows[i].id, c.rows[i].fields - {key}));
      var r := Container(Erase(c.keys, key), c.types - {key}, rows);
      assert Ids(rows) == Ids(c.rows);
      forall id ensures IndexOf(rows, id) == IndexOf(c.rows, id) {
        IndexOfSameIds(rows, c.rows, id);
      }
      assert KeySet(r) == KeySet(c) - {key};
      (r, true)
  }
}

=== FILE: page_view.dfy ===
/** The page view (ProxyPageContainer) as data: copying a window of the
    source into a fresh container, and hiding rows of it locally. */
module PageView {
  import opened Base
  import opened Containers
  import opened Window

  /** The first source property, in source order, that the view lacks. */
  function FirstOutside(srcKeys: seq<Key>, viewKeys: seq<Key>): (r: Option<Key>)
    ensures r.None? <==> forall k :: k in srcKeys ==> k in viewKeys
    ensures r.Some? ==> r.value in srcKeys && r.value !in viewKeys
  {
    if |srcKeys| == 0 then None
    else if srcKeys[0] !in viewKeys then Some(srcKeys[0])
    else
      assert forall k :: k in srcKeys <==> k == srcKeys[0] || k in srcKeys[1..];
      FirstOutside(srcKeys[1..], viewKeys)
  }

  /** The source properties, in source order, that the copy loop gets
      through before it reaches the first one the view lacks. */
  function KeysBefore(srcKeys: seq<Key>, viewKeys: seq<Key>): (r: seq<Key>)
    ensures |r| <= |srcKeys| && r == srcKeys[..|r|]
    ensures forall k :: k in r ==> k in viewKeys
    ensures |r| < |srcKeys| <==> FirstOutside(srcKeys, viewKeys).Some?
    ensures |r| < |srcKeys| ==> FirstOutside(srcKeys, viewKeys) == Some(srcKeys[|r|])
  {
    if |srcKeys| == 0 || srcKeys[0] !in viewKeys then []
    else [srcKeys[0]] + KeysBefore(srcKeys[1..], viewKeys)
  }

  /** The item a faulting `copySingleItemFromParent` leaves in the view: it
      was added with every view property null and has taken the source's
      values for the source properties copied before the fault. */
  function PartialRow(src: Container, row: Row, viewKeys: seq<Key>): (r: Row)
    ensures r.id == row.id
    ensures r.fields.Keys == set k | k in viewKeys
    ensures forall k :: k in KeysBefore(src.keys, viewKeys) ==> ValueAt(r, k) == ValueAt(row, k)
    ensures forall k :: k in viewKeys && k !in KeysBefore(src.keys, viewKeys) ==> ValueAt(r, k) == Null
  {
    var copied := KeysBefore(src.keys, viewKeys);
    Row(row.id, map k | k in viewKeys :: if k in copied then ValueAt(row, k) else Null)
  }

  /** `copySingleItemFromParent`: a new view item starts with every view
      property null and then takes the source item's value for each source
      property; a source property the view lacks dereferences null. */
  function CopyRow(src: Container, row: Row, viewKeys: seq<Key>): (r: Result<Row>)
    ensures r.Ok? <==> forall k :: k in src.keys ==> k in viewKeys
    ensures r.Err? ==> r.fault.MissingProperty? && r.fault.id == row.id
    ensures r.Ok? ==> r.value.id == row.id
    ensures r.Ok? ==> r.value.fields.Keys == set k | k in viewKeys
    ensures r.Ok? ==> forall k :: k in src.keys ==> ValueAt(r.value, k) == ValueAt(row, k)
    ensures r.Ok? ==> forall k :: k in viewKeys && k !in src.keys ==> ValueAt(r.value, k) == Null
  {
    match FirstOutside(src.keys, viewKeys)
    case Some(k) => Err(MissingProperty(row.id, k))
    case None => Ok(Row(row.id, map k | k in viewKeys :: if k in src.keys then ValueAt(row, k) else Null))
  }

  /** `copyMultipleItemsFromParent(start, stop)`: copies the items at
      positions start, start+1, ..., stop-1, failing at the first position
      that does not exist. */
  function CopyWindow(src: Container, viewKeys: seq<Key>, start: int, stop: int): (r: Result<seq<Row>>)
    ensures start >= stop ==> r == Ok([])
    ensures start < stop && start < 0 ==> r == Err(IndexOutOfBounds(start))
    ensures r.Ok? ==> |r.value| == if start < stop then stop - start else 0
    ensures r.Ok? && start < stop ==> 0 <= start && stop <= |src.rows|
    ensures r.Ok? && start < stop ==> Ids(r.value) == Ids(src.rows[start..stop])
    ensures r.Ok? ==> forall j :: 0 <= j < |r.value| ==> r.value[j].fields.Keys == set k | k in viewKeys
    decreases stop - start
  {
    if stop <= start then Ok([])
    else if start < 0 || start >= |src.rows| then Err(IndexOutOfBounds(start))
    else
      match CopyRow(src, src.rows[start], viewKeys)
      case Err(f) => Err(f)
      case Ok(row) =>
        match CopyWindow(src, viewKeys, start + 1, stop)
        case Err(f) => Err(f)
        case Ok(rest) =>
          assert Ids([row] + rest) == Ids(src.rows[start..stop]) by {
            assert src.rows[start..stop] == [src.rows[start]] + src.rows[start + 1..stop];
            IdsOfJoin([row], rest);
            IdsOfJoin([src.rows[start]], src.rows[start + 1..stop]);
            if start + 1 == stop { assert rest == [] == src.rows[start + 1..stop]; }
          }
          Ok([row] + rest)
  }

  /** One step of the copy loop: the row at `start`, then the rest. */
  lemma CopyWindowStep(src: Container, viewKeys: seq<Key>, start: int, stop: int, row: Row, rest: seq<Row>)
    requires 0 <= start < stop && start < |src.rows|
    requires CopyRow(src, src.rows[start], viewKeys) == Ok(row)
    requires CopyWindow(src, viewKeys, start + 1, stop) == Ok(rest)
    ensures CopyWindow(src, viewKeys, start, stop) == Ok([row] + rest)
  {
  }

  /** Inside the source's bounds a copy can only fail at its first position:
      either that position is negative, or some source property is missing
      from the view, which the copy of the first item already hits. */
  lemma CopyWindowFailsOnlyAtStart(src: Container, viewKeys: seq<Key>, start: int, stop: int)
    requires start < stop <= |src.rows|
    ensures CopyWindow(src, viewKeys, start, stop).Err?
        <==> start < 0 || exists k :: k in src.keys && k !in viewKeys
    ensures 0 <= start && CopyWindow(src, viewKeys, start, stop).Err? ==>
      CopyRow(src, src.rows[start], viewKeys).Err?
  {
    if 0 <= start && forall k :: k in src.keys ==> k in viewKeys {
      CopyWindowSucceeds(src, viewKeys, start, stop);
    } else if 0 <= start {
      assert CopyRow(src, src.rows[start], viewKeys).Err?;
    }
  }

  /** A row carrying exactly the container's properties copies to itself. */
  lemma CopyRowOfOwnSchema(src: Container, row: Row)
    requires row.fields.Keys == KeySet(src)
    ensures CopyRow(src, row, src.keys) == Ok(row)
  {
    assert KeySet(src) == set k | k in src.keys;
    var r := CopyRow(src, row, src.keys).value;
    assert r.fields.Keys == row.fields.Keys;
    forall k | k in r.fields ensures r.fields[k] == row.fields[k] {
      assert ValueAt(r, k) == ValueAt(row, k);
    }
    assert r.fields == row.fields;
  }

  /** Copying a window of a well-formed source with the source's own schema
      yields exactly the source's rows at those positions, in source order. */
  lemma {:induction false} CopyWindowIsSlice(src: Container, start: int, stop: int)
    requires Wf(src) && 0 <= start <= stop <= |src.rows|
    ensures CopyWindow(src, src.keys, start, stop) == Ok(src.rows[start..stop])
    decreases stop - start
  {
    if start < stop {
      var row := src.rows[start];
      var rest := src.rows[start + 1..stop];
      assert src.rows[start..stop] == [row] + rest;
      CopyRowOfOwnSchema(src, row);
      CopyWindowIsSlice(src, start + 1, stop);
      CopyWindowStep(src, src.keys, start, stop, row, rest);
    } else {
      assert src.rows[start..stop] == [];
    }
  }

  /** The copied rows of a source with distinct ids have distinct ids. */
  lemma CopyWindowDistinct(src: Container, viewKeys: seq<Key>, start: int, stop: int)
    requires DistinctIds(src.rows) && CopyWindow(src, viewKeys, start, stop).Ok?
    ensures DistinctIds(CopyWindow(src, viewKeys, start, stop).value)
  {
    var rows := CopyWindow(src, viewKeys, start, stop).value;
    if start < stop {
      var slice := src.rows[start..stop];
      forall i, j | 0 <= i < j < |rows| ensures rows[i].id != rows[j].id {
        assert rows[i].id == Ids(rows)[i] == Ids(slice)[i] == src.rows[start + i].id;
        assert rows[j].id == Ids(rows)[j] == Ids(slice)[j] == src.rows[start + j].id;
      }
    }
  }

  /** A copy that succeeds from a source whose schema is in the view's. */
  lemma {:induction false} CopyWindowSucceeds(src: Container, viewKeys: seq<Key>, start: int, stop: int)
    requires forall k :: k in src.keys ==> k in viewKeys
    requires start >= stop || (0 <= start && stop <= |src.rows|)
    ensures CopyWindow(src, viewKeys, start, stop).Ok?
    decreases stop - start
  {
    if start < stop {
      CopyWindowSucceeds(src, viewKeys, start + 1, stop);
    }
  }

  /** A slice of a well-formed container's rows, with its schema, is a
      well-formed container. */
  lemma SliceKeepsWf(src: Container, first: int, last: int)
    requires Wf(src) && 0 <= first <= last <= |src.rows|
    ensures Wf(Container(src.keys, src.types, src.rows[first..last]))
  {
    var rows := src.rows[first..last];
    forall i | 0 <= i < |rows| ensures rows[i].fields.Keys == KeySet(src) {
      assert rows[i] == src.rows[first + i];
    }
    forall i, j | 0 <= i < j < |rows| ensures rows[i].id != rows[j].id {
      assert rows[i] == src.rows[first + i] && rows[j] == src.rows[first + j];
    }
  }

  /** `showHiddenRows` on one view: every item is removed, then the window
      [first, last) of the source is copied in again. A negative start
      faults before any item is added and leaves the view empty; a missing
      property faults inside the copy of the first item, which stays in the
      view partly filled. Each value copied is the source's own, so the
      view's view -> source synchronizer writes nothing back. */
  function Refill(src: Container, view: Container, first: int, last: int): (r: (Container, Option<Fault>))
    requires Wf(src) && Wf(view) && last <= |src.rows|
    ensures Wf(r.0) && r.0.keys == view.keys && r.0.types == view.types
    ensures r.1.Some? <==> first < last && (first < 0 || exists k :: k in src.keys && k !in view.keys)
    ensures r.1.Some? && first < 0 ==> r.0.rows == []
    ensures r.1.Some? && 0 <= first ==>
      && first < |src.rows|
      && r.0.rows == [PartialRow(src, src.rows[first], view.keys)]
      && Ids(r.0.rows) == [src.rows[first].id]
    ensures r.1.None? ==> Ids(r.0.rows) == if first < last then Ids(src.rows[first..last]) else []
    ensures view.keys == src.keys && view.types == src.types && r.1.None? ==>
      r.0 == Container(src.keys, src.types, if first < last then src.rows[first..last] else [])
  {
    assert first < last ==>
      (CopyWindow(src, view.keys, first, last).Err? <==> first < 0 || exists k :: k in src.keys && k !in view.keys)
    by {
      if first < last { CopyWindowFailsOnlyAtStart(src, view.keys, first, last); }
    }
    assert view.keys == src.keys && 0 <= first < last ==> CopyWindow(src, view.keys, first, last) == Ok(src.rows[first..last]) by {
      if view.keys == src.keys && 0 <= first < last { CopyWindowIsSlice(src, first, last); }
    }
    match CopyWindow(src, view.keys, first, last)
    case Err(f) =>
      if first < 0 then (view.(rows := []), Some(f))
      else
        var partial := PartialRow(src, src.rows[first], view.keys);
        assert Ids([partial]) == [partial.id];
        (view.(rows := [partial]), Some(f))
    case Ok(rows) =>
      assert DistinctIds(rows) by { CopyWindowDistinct(src, view.keys, first, last); }
      (view.(rows := rows), None)
  }


  /** The new ProxyPageContainer for zero-based `page`: the source's
      properties with their types, then the window's items. */
  function Materialize(src: Container, page: int, itemsPerPage: int): (r: Result<Container>)
    ensures Wf(src) ==>
      (r.Err? <==> FirstRowIdx(page, itemsPerPage) < 0
                   && FirstRowIdx(page, itemsPerPage) < LastRowIdx(page, itemsPerPage, |src.rows|))
    ensures Wf(src) && 0 <= page ==> r.Ok?
    ensures Wf(src) && r.Ok? ==> r.value.keys == src.keys && r.value.types == src.types
    ensures Wf(src) && r.Ok? ==>
      var first, last := FirstRowIdx(page, itemsPerPage), LastRowIdx(page, itemsPerPage, |src.rows|);
      r.value.rows == if first < last then src.rows[first..last] else []
    ensures Wf(src) && r.Ok? ==> Wf(r.value)
  {
    var first, last := FirstRowIdx(page, itemsPerPage), LastRowIdx(page, itemsPerPage, |src.rows|);
    assert 0 <= page && first < 0 ==> last <= first by {
      if 0 <= page { NonNegativePageWindow(page, itemsPerPage, |src.rows|); }
    }
    assert Wf(src) && 0 <= first < last ==>
      && CopyWindow(src, src.keys, first, last) == Ok(src.rows[first..last])
      && Wf(Container(src.keys, src.types, src.rows[first..last]))
    by {
      if Wf(src) && 0 <= first < last {
        CopyWindowIsSlice(src, first, last);
        SliceKeepsWf(src, first, last);
      }
    }
    match CopyWindow(src, src.keys, first, last)
    case Err(f) => Err(f)
    case Ok(rows) => Ok(Container(src.keys, src.types, rows))
  }

  function SetOf(ids: seq<Id>): set<Id> { set x | x in ids }

  lemma {:induction false} WithoutNothing(rows: seq<Row>, hidden: set<Id>)
    requires forall row :: row in rows ==> row.id !in hidden
    ensures Without(rows, hidden) == rows
    decreases |rows|
  {
    if |rows| > 0 {
      assert rows[0] in rows;
      assert forall row :: row in rows[1..] ==> row in rows;
      WithoutNothing(rows[1..], hidden);
      assert rows == [rows[0]] + rows[1..];
    }
  }

  /** `hideRows`: `removeItem` on the view itself for each given id; the
      result keeps exactly the view's rows whose ids were not given, in order. */
  function HideRows(view: Container, ids: seq<Id>): (r: Container)
    ensures r.keys == view.keys && r.types == view.types
    ensures r.rows == Without(view.rows, SetOf(ids))
    ensures Wf(view) ==> Wf(r)
    decreases |ids|
  {
    if |ids| == 0 then
      assert SetOf(ids) == {};
      WithoutNothing(view.rows, {});
      view
    else
      var step := RemoveItem(view, ids[0]).0;
      var r := HideRows(step, ids[1..]);
      assert SetOf(ids) == {ids[0]} + SetOf(ids[1..]);
      assert r.rows == Without(view.rows, SetOf(ids)) by {
        if !HasItem(view.rows, ids[0]) { WithoutNothing(view.rows, {ids[0]}); }
        WithoutTwice(view.rows, {ids[0]}, SetOf(ids[1..]));
      }
      r
  }

  /** Hiding the same ids a second time changes nothing. */
  lemma HideRowsIdempotent(view: Container, ids: seq<Id>)
    ensures HideRows(HideRows(view, ids), ids) == HideRows(view, ids)
  {
    WithoutTwice(view.rows, SetOf(ids), SetOf(ids));
    assert SetOf(ids) + SetOf(ids) == SetOf(ids);
  }

  /** Ids the view does not hold have no effect. */
  lemma HideAbsentIsNoOp(view: Container, ids: seq<Id>)
    requires forall x :: x in ids ==> !HasItem(view.rows, x)
    ensures HideRows(view, ids) == view
  {
    forall row | row in view.rows ensures row.id !in SetOf(ids) {
      var i :| 0 <= i < |view.rows| && view.rows[i] == row;
    }
    WithoutNothing(view.rows, SetOf(ids));
  }
}

=== FILE: provider.dfy ===
/** PageContainerProvider: the page-window engine.  It hands out page views
    of a source container, wires the two synchronizers of each view, and
    forwards hiding, showing, sorting and the views' structural mutators.

    Every view the provider has built stays in `views`: a caller may keep a
    reference to an old view, and the view -> source synchronizer registered
    on a view is never removed.  `attached` holds the views whose
    source -> view synchronizer is currently registered on the source. */
module PageProvider {
  import opened Base
  import opened Containers
  import opened Window
  import opened Sync
  import opened PageView

  /** The source container and the optional interfaces it implements
      (Property.ValueChangeNotifier, Container.Sortable). */
  datatype Source = Source(data: Container, notifier: bool, sortable: bool)

  datatype Provider = Provider(
    source: Source,
    itemsPerPage: int,
    currentPageNumber: int,   // zero-based; every page request overwrites it
    views: seq<Container>,    // every page view built so far, oldest first
    current: Option<nat>,     // the position in `views` of the current page view
    attached: set<nat>)       // views whose source -> view synchronizer is on the source

  /** The provider's invariant: the source and every view are well-formed
      containers, the current view exists, and at most one source -> view
      synchronizer is registered, the current view's, and only on a
      change-notifying source. */
  predicate Valid(p: Provider) {
    && Wf(p.source.data)
    && (forall j :: 0 <= j < |p.views| ==> Wf(p.views[j]))
    && (p.current.Some? ==> p.current.value < |p.views|)
    && (forall j :: j in p.attached ==> p.current == Some(j))
    && (!p.source.notifier ==> p.attached == {})
  }

  const DefaultItemsPerPage: int := 100

  /** The one-argument constructor: a provider with the default page size. */
  function NewDefaultProvider(source: Source): (p: Provider)
    ensures Wf(source.data) ==> Valid(p)
    ensures p.itemsPerPage == DefaultItemsPerPage && p.source == source
    ensures p.current.None? && p.attached == {} && p.views == [] && p.currentPageNumber == 0
  {
    NewProvider(source, DefaultItemsPerPage)
  }

  function NewProvider(source: Source, itemsPerPage: int): (p: Provider)
    ensures Wf(source.data) ==> Valid(p)
    ensures p.source == source && p.itemsPerPage == itemsPerPage && p.views == []
    ensures p.current.None? && p.attached == {} && p.currentPageNumber == 0
  {
    Provider(source, itemsPerPage, 0, [], None, {})
  }

  /** `getLastPageNumber`, recomputed from the source's current size. */
  function LastPageNumber(p: Provider): (n: int)
    ensures n >= 1
    ensures p.itemsPerPage > 0 && |p.source.data.rows| > 0 ==>
      (n - 1) * p.itemsPerPage < |p.source.data.rows| <= n * p.itemsPerPage
  {
    NumberOfPages(|p.source.data.rows|, p.itemsPerPage)
  }

  /** `removeParentListener` for view i. */
  function RemoveParentListener(p: Provider, i: nat): (r: Provider)
    ensures r.attached <= p.attached
    ensures p.source.notifier ==> r.attached == p.attached - {i}
    ensures r.(attached := p.attached) == p
  {
    if p.source.notifier then p.(attached := p.attached - {i}) else p
  }

  /** What `getPageContainer` hands back: null, the new view, or an exception. */
  datatype Opening = NoSuchPage | Opened(view: nat) | Failed(fault: Fault)

  /** `getPageContainer(pageNumber)` with a one-based page number. */
  function GetPageContainer(p: Provider, pageNumber: int): (r: (Provider, Opening))
    requires Valid(p)
    ensures Valid(r.0)
    ensures r.0.currentPageNumber == pageNumber - 1
    ensures r.0.source == p.source && r.0.itemsPerPage == p.itemsPerPage
    ensures r.1.NoSuchPage? <==> pageNumber - 1 >= LastPageNumber(p)
    ensures r.1.NoSuchPage? ==> r.0.views == p.views && r.0.current == p.current && r.0.attached == p.attached
    ensures pageNumber >= 1 ==> !r.1.Failed?
    ensures r.1.Failed? ==>
      r.0.views == p.views && r.0.current == p.current && r.0.attached == {} && r.1.fault.IndexOutOfBounds?
    ensures r.1.Opened? ==>
      && r.1.view == |p.views| && |r.0.views| == |p.views| + 1 && r.0.views[..|p.views|] == p.views
      && r.0.current == Some(r.1.view)
      && r.0.attached == (if p.source.notifier then {r.1.view} else {})
    ensures r.1.Opened? ==>
      var view, src := r.0.views[r.1.view], p.source.data;
      var first, last := FirstRowIdx(pageNumber - 1, p.itemsPerPage), LastRowIdx(pageNumber - 1, p.itemsPerPage, |src.rows|);
      && view.keys == src.keys && view.types == src.types
      && view.rows == (if 0 <= first < last then src.rows[first..last] else [])
  {
    var page := pageNumber - 1;
    var p1 := p.(currentPageNumber := page);
    if !IsPageAvailable(page, |p.source.data.rows|, p.itemsPerPage) then (p1, NoSuchPage)
    else
      var p2 := if p.current.Some? then RemoveParentListener(p1, p.current.value) else p1;
      assert p2.attached == {};
      match Materialize(p.source.data, page, p.itemsPerPage)
      case Err(f) => (p2, Failed(f))
      case Ok(view) =>
        var idx := |p.views|;
        var q := p2.(views := p.views + [view], current := Some(idx),
                     attached := if p.source.notifier then {idx} else {});
        assert q.views[idx] == view;
        (q, Opened(idx))
  }

  /** A valid page opens a view with min(itemsPerPage, size - first) rows. */
  lemma OpenedPageSize(p: Provider, pageNumber: int)
    requires Valid(p) && p.itemsPerPage > 0
    requires 1 <= pageNumber <= LastPageNumber(p)
    ensures GetPageContainer(p, pageNumber).1.Opened?
    ensures var r := GetPageContainer(p, pageNumber);
      |r.0.views[r.1.view].rows| == Min(p.itemsPerPage, |p.source.data.rows| - (pageNumber - 1) * p.itemsPerPage)
  {
    var size, k := |p.source.data.rows|, p.itemsPerPage;
    ValidPageWindow(pageNumber - 1, size, k);
    assert (pageNumber - 1) * k + k == pageNumber * k;
  }

  /** `hideRows` on the provider: the current view loses the given rows;
      nothing else changes.  With no page open the call dereferences null. */
  function HideRowsOf(p: Provider, ids: seq<Id>): (r: Result<Provider>)
    requires Valid(p)
    ensures r.Err? <==> p.current.None?
    ensures r.Err? ==> r.fault == NoOpenPage
    ensures r.Ok? ==> Valid(r.value)
    ensures r.Ok? ==> r.value == p.(views := r.value.views)
    ensures r.Ok? ==> |r.value.views| == |p.views|
    ensures r.Ok? ==> forall j :: 0 <= j < |p.views| && Some(j) != p.current ==> r.value.views[j] == p.views[j]
    ensures r.Ok? ==>
      var view, view' := p.views[p.current.value], r.value.views[p.current.value];
      && view'.keys == view.keys && view'.types == view.types
      && view'.rows == Without(view.rows, SetOf(ids))
  {
    match p.current
    case None => Err(NoOpenPage)
    case Some(i) => Ok(p.(views := p.views[i := HideRows(p.views[i], ids)]))
  }

  /** `showHiddenRows` on the provider: the current view is emptied locally
      and refilled with the window of `currentPageNumber`, whatever page
      request last set it. */
  function ShowHiddenRows(p: Provider): (r: (Provider, Option<Fault>))
    requires Valid(p)
    ensures p.current.None? ==> r == (p, Some(NoOpenPage))
    ensures Valid(r.0)
    ensures r.0 == p.(views := r.0.views) && |r.0.views| == |p.views|
    ensures forall j :: 0 <= j < |p.views| && Some(j) != p.current ==> r.0.views[j] == p.views[j]
    ensures p.current.Some? ==>
      var view, view' := p.views[p.current.value], r.0.views[p.current.value];
      var first := FirstRowIdx(p.currentPageNumber, p.itemsPerPage);
      var last := LastRowIdx(p.currentPageNumber, p.itemsPerPage, |p.source.data.rows|);
      && view'.keys == view.keys && view'.types == view.types
      && (r.1.Some? <==> first < last && (first < 0 || exists k :: k in p.source.data.keys && k !in view.keys))
      && (r.1.Some? && first < 0 ==> view'.rows == [])
      && (r.1.Some? && 0 <= first ==>
            && first < |p.source.data.rows|
            && view'.rows == [PartialRow(p.source.data, p.source.data.rows[first], view.keys)]
            && Ids(view'.rows) == [p.source.data.rows[first].id])
      && (r.1.None? ==> Ids(view'.rows) == if first < last then Ids(p.source.data.rows[first..last]) else [])
    ensures (p.current.Some? && p.views[p.current.value].keys == p.source.data.keys
             && p.views[p.current.value].types == p.source.data.types) ==>
      var reopened := Materialize(p.source.data, p.currentPageNumber, p.itemsPerPage);
      && (r.1.None? <==> reopened.Ok?)
      && (r.1.None? ==> r.0.views[p.current.value] == reopened.value)
  {
    match p.current
    case None => (p, Some(NoOpenPage))
    case Some(i) =>
      var first := FirstRowIdx(p.currentPageNumber, p.itemsPerPage);
      var last := LastRowIdx(p.currentPageNumber, p.itemsPerPage, |p.source.data.rows|);
      var (view', fault) := Refill(p.source.data, p.views[i], first, last);
      (p.(views := p.views[i := view']), fault)
  }



  /** Hiding and then showing gives the view a fresh materialisation of the
      current window would have: the hidden rows, and any source edits made
      meanwhile, are back. */
  lemma HideThenShowIsFreshOpen(p: Provider, ids: seq<Id>)
    requires Valid(p) && p.current.Some?
    requires p.views[p.current.value].keys == p.source.data.keys
    requires p.views[p.current.value].types == p.source.data.types
    requires Materialize(p.source.data, p.currentPageNumber, p.itemsPerPage).Ok?
    ensures HideRowsOf(p, ids).Ok?
    ensures ShowHiddenRows(HideRowsOf(p, ids).value).1.None?
    ensures ShowHiddenRows(HideRowsOf(p, ids).value).0.views[p.current.value]
         == Materialize(p.source.data, p.currentPageNumber, p.itemsPerPage).value
  {
    var q := HideRowsOf(p, ids).value;
    assert q.views[q.current.value].keys == p.source.data.keys;
  }

  /** A rejected page request still overwrites `currentPageNumber`, so a
      later `showHiddenRows` refills the old view from the rejected page's
      window, which is empty. */
  lemma ShowAfterRejectedRequestEmptiesView(p: Provider, pageNumber: int)
    requires Valid(p) && p.current.Some? && p.itemsPerPage > 0
    requires pageNumber - 1 >= LastPageNumber(p)
    ensures GetPageContainer(p, pageNumber).1 == NoSuchPage
    ensures ShowHiddenRows(GetPageContainer(p, pageNumber).0).1.None?
    ensures ShowHiddenRows(GetPageContainer(p, pageNumber).0).0.views[p.current.value].rows == []
  {
    PastLastPageStartsPastEnd(pageNumber - 1, |p.source.data.rows|, p.itemsPerPage);
  }

  /** The arguments `sort` passes to a sortable source. */
  datatype SortCall = SortCall(propertyIds: seq<Key>, ascending: seq<bool>)

  datatype SortDispatch = CallSort(call: SortCall) | NoContainer | Unsupported

  /** The three branches of `sort`: a sortable source is asked to sort by
      one property in one direction, a null source is left alone, any other
      source is refused. */
  function DispatchSort(src: Option<Source>, key: Key, ascending: bool): (r: SortDispatch)
    ensures r.CallSort? <==> src.Some? && src.value.sortable
    ensures r.CallSort? ==> |r.call.propertyIds| == 1 == |r.call.ascending|
    ensures r.CallSort? ==> r.call.propertyIds[0] == key && r.call.ascending[0] == ascending
    ensures r.Unsupported? <==> src.Some? && !src.value.sortable
    ensures r.NoContainer? <==> src.None?
  {
    match src
    case None => NoContainer
    case Some(s) => if s.sortable then CallSort(SortCall([key], [ascending])) else Unsupported
  }

  /** `perm` sends every position to a distinct position of the same range. */
  predicate IsPermutation(perm: seq<int>, n: nat) {
    && |perm| == n
    && (forall i :: 0 <= i < n ==> 0 <= perm[i] < n)
    && (forall i, j :: 0 <= i < j < n ==> perm[i] != perm[j])
  }

  /** `sort` on the provider.  The source's own ordering is abstract: it is
      the permutation `perm` the source's sort produces.  The current view
      is NOT refreshed; the rows it holds stay as they were. */
  function Sort(p: Provider, key: Key, ascending: bool, perm: seq<int>): (r: Result<Provider>)
    requires Valid(p) && IsPermutation(perm, |p.source.data.rows|)
    ensures r.Ok? <==> p.source.sortable
    ensures r.Err? ==> r.fault == UnsupportedSort
    ensures r.Ok? ==> Valid(r.value)
    ensures r.Ok? ==> r.value == p.(source := r.value.source)
    ensures r.Ok? ==> r.value.source == p.source.(data := r.value.source.data)
    ensures r.Ok? ==> (r.value.source.data.keys == p.source.data.keys
                    && r.value.source.data.types == p.source.data.types
                    && |r.value.source.data.rows| == |p.source.data.rows|)
    ensures r.Ok? ==> forall j :: 0 <= j < |perm| ==> r.value.source.data.rows[j] == p.source.data.rows[perm[j]]
    ensures r.Ok? ==> forall row :: row in r.value.source.data.rows ==> row in p.source.data.rows
  {
    match DispatchSort(Some(p.source), key, ascending)
    case CallSort(_) =>
      var rows := p.source.data.rows;
      var sorted := seq(|rows|, i requires 0 <= i < |rows| => rows[perm[i]]);
      assert DistinctIds(sorted) by {
        forall i, j | 0 <= i < j < |sorted| ensures sorted[i].id != sorted[j].id {
          assert sorted[i] == rows[perm[i]] && sorted[j] == rows[perm[j]];
          assert perm[i] != perm[j];
        }
      }
      assert forall i :: 0 <= i < |sorted| ==> sorted[i] in rows;
      Ok(p.(source := p.source.(data := p.source.data.(rows := sorted))))
    case _ => Err(UnsupportedSort)
  }

  lemma SubsetCard(a: set<int>, b: set<int>)
    requires a <= b
    ensures |a| <= |b|
  {
    assert a + b == b && a * b == a && a - b == {};
    assert |a + b| == |a - b| + |b - a| + |a * b|;
  }

  /** An injective sequence of length m has m distinct values. */
  lemma {:induction false} ImageCard(perm: seq<int>, m: nat)
    requires m <= |perm| && forall i, j :: 0 <= i < j < m ==> perm[i] != perm[j]
    ensures |set i | 0 <= i < m :: perm[i]| == m
    decreases m
  {
    if m > 0 {
      ImageCard(perm, m - 1);
      var before := set i | 0 <= i < m - 1 :: perm[i];
      assert (set i | 0 <= i < m :: perm[i]) == before + {perm[m - 1]};
      assert perm[m - 1] !in before;
    }
  }

  /** The positions 0, 1, ..., n-1 as a set. */
  function Upto(n: nat): (r: set<int>)
    ensures forall x :: x in r <==> 0 <= x < n
    ensures |r| == n
  {
    if n == 0 then {} else Upto(n - 1) + {n - 1}
  }


  /** A permutation reaches every position of its range. */
  lemma PermutationOnto(perm: seq<int>, n: nat, k: int)
    requires IsPermutation(perm, n) && 0 <= k < n
    ensures exists i :: 0 <= i < n && perm[i] == k
  {
    var image := set i | 0 <= i < n :: perm[i];
    ImageCard(perm, n);
    if k !in image {
      SubsetCard(image, Upto(n) - {k});
      assert false;
    }
  }


  /** Sorting only rearranges: the source keeps every row it had. */
  lemma SortKeepsEveryRow(p: Provider, key: Key, ascending: bool, perm: seq<int>)
    requires Valid(p) && IsPermutation(perm, |p.source.data.rows|) && p.source.sortable
    ensures Sort(p, key, ascending, perm).Ok?
    ensures forall row :: row in p.source.data.rows ==> row in Sort(p, key, ascending, perm).value.source.data.rows
  {
    var rows, sorted := p.source.data.rows, Sort(p, key, ascending, perm).value.source.data.rows;
    forall row | row in rows ensures row in sorted {
      var k :| 0 <= k < |rows| && rows[k] == row;
      PermutationOnto(perm, |rows|, k);
      var i :| 0 <= i < |rows| && perm[i] == k;
      assert sorted[i] == row;
    }
  }

  // ---- the view's structural mutators ------------------------------------

  /** `removeItem` on view i goes to the source only: the view still shows the row. */
  function ViewRemoveItem(p: Provider, i: nat, id: Id): (r: (Provider, bool))
    requires Valid(p) && i < |p.views|
    ensures Valid(r.0)
    ensures r.1 <==> HasItem(p.source.data.rows, id)
    ensures !HasItem(r.0.source.data.rows, id)
    ensures forall row :: row in r.0.source.data.rows <==> row in p.source.data.rows && row.id != id
    ensures r.1 ==> r.0.source.data.rows == Without(p.source.data.rows, {id})
    ensures r.0 == p.(source := r.0.source) && r.0.source == p.source.(data := r.0.source.data)
    ensures r.0.source.data.keys == p.source.data.keys && r.0.source.data.types == p.source.data.types
    ensures !r.1 ==> r.0 == p
  {
    var (d, ok) := RemoveItem(p.source.data, id);
    (p.(source := p.source.(data := d)), ok)
  }

  /** `removeAllItems` on view i empties the source only. */
  function ViewRemoveAllItems(p: Provider, i: nat): (r: (Provider, bool))
    requires Valid(p) && i < |p.views|
    ensures Valid(r.0) && r.1
    ensures r.0.source.data.rows == [] && r.0.source.data.keys == p.source.data.keys
    ensures r.0.source.data.types == p.source.data.types
    ensures r.0 == p.(source := r.0.source) && r.0.source == p.source.(data := r.0.source.data)
  {
    (p.(source := p.source.(data := RemoveAllItems(p.source.data))), true)
  }

  /** `addItem(id)` on view i: the view takes the item too only while it
      holds fewer than itemsPerPage rows; the source always gets the request
      and its answer is returned. */
  function ViewAddItem(p: Provider, i: nat, id: Id): (r: (Provider, bool))
    requires Valid(p) && i < |p.views|
    ensures Valid(r.0)
    ensures r.1 <==> !HasItem(p.source.data.rows, id)
    ensures HasItem(r.0.source.data.rows, id)
    ensures r.1 ==> |r.0.source.data.rows| == |p.source.data.rows| + 1
    ensures r.1 ==> r.0.source.data.rows[..|p.source.data.rows|] == p.source.data.rows
    ensures |r.0.views| == |p.views|
    ensures !r.1 ==> r.0.source == p.source
    ensures r.1 ==> forall k :: k in p.source.data.keys ==> Read(r.0.source.data, id, k) == Some(Null)
    ensures r.0.source.data.keys == p.source.data.keys && r.0.source.data.types == p.source.data.types
    ensures r.0 == p.(views := r.0.views, source := r.0.source) && r.0.source == p.source.(data := r.0.source.data)
    ensures |p.views[i].rows| < p.itemsPerPage ==> HasItem(r.0.views[i].rows, id)
    ensures r.0.views[i].keys == p.views[i].keys && r.0.views[i].types == p.views[i].types
    ensures |p.views[i].rows| < p.itemsPerPage && !HasItem(p.views[i].rows, id) ==>
      && |r.0.views[i].rows| == |p.views[i].rows| + 1
      && r.0.views[i].rows[..|p.views[i].rows|] == p.views[i].rows
      && forall k :: k in p.views[i].keys ==> Read(r.0.views[i], id, k) == Some(Null)
    ensures |p.views[i].rows| >= p.itemsPerPage || HasItem(p.views[i].rows, id) ==> r.0.views[i] == p.views[i]
    ensures forall j :: 0 <= j < |p.views| && j != i ==> r.0.views[j] == p.views[j]
  {
    var view := p.views[i];
    var view' := if |view.rows| < p.itemsPerPage then AddItem(view, id).0 else view;
    var (d, ok) := AddItem(p.source.data, id);
    (p.(views := p.views[i := view'], source := p.source.(data := d)), ok)
  }

  /** `addContainerProperty` on view i: added to the view and to the source;
      the source's answer is returned. */
  function ViewAddProperty(p: Provider, i: nat, key: Key, ty: TypeName, default: Value): (r: (Provider, bool))
    requires Valid(p) && i < |p.views|
    ensures Valid(r.0)
    ensures r.1 <==> key !in p.source.data.keys
    ensures |r.0.views| == |p.views|
    ensures r.0 == p.(views := r.0.views, source := r.0.source) && r.0.source == p.source.(data := r.0.source.data)
    ensures forall j :: 0 <= j < |p.views| && j != i ==> r.0.views[j] == p.views[j]
    ensures key in r.0.source.data.keys && key in r.0.views[i].keys
    ensures !r.1 ==> r.0.source == p.source
    ensures r.1 ==> r.0.source.data.keys == p.source.data.keys + [key]
    ensures r.1 ==> r.0.source.data.types == p.source.data.types[key := ty]
    ensures key !in p.views[i].keys ==> r.0.views[i].keys == p.views[i].keys + [key]
    ensures key !in p.views[i].keys ==> r.0.views[i].types == p.views[i].types[key := ty]
    ensures key in p.views[i].keys ==> r.0.views[i] == p.views[i]
    ensures Ids(r.0.source.data.rows) == Ids(p.source.data.rows) && Ids(r.0.views[i].rows) == Ids(p.views[i].rows)
    ensures r.1 ==> forall id :: HasItem(p.source.data.rows, id) ==> Read(r.0.source.data, id, key) == Some(default)
    ensures key !in p.views[i].keys ==> forall id :: HasItem(p.views[i].rows, id) ==> Read(r.0.views[i], id, key) == Some(default)
    ensures forall id, k :: k in p.source.data.keys ==> Read(r.0.source.data, id, k) == Read(p.source.data, id, k)
    ensures forall id, k :: k in p.views[i].keys ==> Read(r.0.views[i], id, k) == Read(p.views[i], id, k)
  {
    var (view, _) := AddProperty(p.views[i], key, ty, default);
    var (d, ok) := AddProperty(p.source.data, key, ty, default);
    (p.(views := p.views[i := view], source := p.source.(data := d)), ok)
  }

  /** `removeContainerProperty` on view i: removed from the view and from
      the source; the source's answer is returned. */
  function ViewRemoveProperty(p: Provider, i: nat, key: Key): (r: (Provider, bool))
    requires Valid(p) && i < |p.views|
    ensures Valid(r.0)
    ensures r.1 <==> key in p.source.data.keys
    ensures |r.0.views| == |p.views|
    ensures r.0 == p.(views := r.0.views, source := r.0.source) && r.0.source == p.source.(data := r.0.source.data)
    ensures forall j :: 0 <= j < |p.views| && j != i ==> r.0.views[j] == p.views[j]
    ensures key !in r.0.source.data.keys && key !in r.0.views[i].keys
    ensures !r.1 ==> r.0.source == p.source
    ensures forall k :: k in r.0.source.data.keys <==> k in p.source.data.keys && k != key
    ensures forall k :: k in r.0.views[i].keys <==> k in p.views[i].keys && k != key
    ensures r.0.source.data.keys == Erase(p.source.data.keys, key)
    ensures r.1 ==> r.0.source.data.types == p.source.data.types - {key}
    ensures r.0.views[i].keys == Erase(p.views[i].keys, key)
    ensures key in p.views[i].keys ==> r.0.views[i].types == p.views[i].types - {key}
    ensures key !in p.views[i].keys ==> r.0.views[i] == p.views[i]
    ensures Ids(r.0.source.data.rows) == Ids(p.source.data.rows) && Ids(r.0.views[i].rows) == Ids(p.views[i].rows)
    ensures forall id :: Read(r.0.source.data, id, key) == None && Read(r.0.views[i], id, key) == None
    ensures forall id, k :: k != key ==> Read(r.0.source.data, id, k) == Read(p.source.data, id, k)
    ensures forall id, k :: k != key ==> Read(r.0.views[i], id, k) == Read(p.views[i], id, k)
  {
    var (view, _) := RemoveProperty(p.views[i], key);
    var (d, ok) := RemoveProperty(p.source.data, key);
    (p.(views := p.views[i := view], source := p.source.(data := d)), ok)
  }

  // ---- value changes and their propagation ---------------------------------

  /** The source notifies its registered source -> view synchronizers of a
      value change, visiting views from position `from` on. */
  function NotifyViews(views: seq<Container>, attached: set<nat>, from: nat, id: Id, key: Key, v: Value)
    : (r: Result<seq<Container>>)
    ensures r.Ok? ==> |r.value| == |views|
    ensures r.Ok? ==> forall j :: 0 <= j < |views| && (j < from || j !in attached) ==> r.value[j] == views[j]
    ensures r.Ok? ==> forall j :: from <= j < |views| && j in attached ==> Propagate(views[j], id, key, v) == Ok(r.value[j])
    ensures r.Err? <==> exists j :: from <= j < |views| && j in attached && Propagate(views[j], id, key, v).Err?
    ensures r.Ok? && (forall j :: 0 <= j < |views| ==> Wf(views[j])) ==> forall j :: 0 <= j < |r.value| ==> Wf(r.value[j])
    decreases |views| - from
  {
    if from >= |views| then Ok(views)
    else if from in attached then
      match Propagate(views[from], id, key, v)
      case Err(f) => Err(f)
      case Ok(d) => NotifyViews(views[from := d], attached, from + 1, id, key, v)
    else NotifyViews(views, attached, from + 1, id, key, v)
  }

  /** A registered view that already reads the value still reads it after
      the notification. */
  lemma NotifyViewsKeepsValue(views: seq<Container>, attached: set<nat>, id: Id, key: Key, v: Value)
    requires NotifyViews(views, attached, 0, id, key, v).Ok?
    ensures var vs := NotifyViews(views, attached, 0, id, key, v).value;
      forall j :: 0 <= j < |views| && Read(views[j], id, key) == Some(v) ==> Read(vs[j], id, key) == Some(v)
  {
    var vs := NotifyViews(views, attached, 0, id, key, v).value;
    forall j | 0 <= j < |views| && Read(views[j], id, key) == Some(v)
      ensures Read(vs[j], id, key) == Some(v)
    {
      if j in attached {
        assert Propagate(views[j], id, key, v) == Ok(vs[j]);
        assert HasItem(views[j].rows, id);
      }
    }
  }

  /** The notification touches no other cell, no property list and no item
      list of any view. */
  lemma NotifyViewsFrame(views: seq<Container>, attached: set<nat>, id: Id, key: Key, v: Value)
    requires NotifyViews(views, attached, 0, id, key, v).Ok?
    ensures var vs := NotifyViews(views, attached, 0, id, key, v).value;
      forall j :: 0 <= j < |views| ==> vs[j].keys == views[j].keys && Ids(vs[j].rows) == Ids(views[j].rows)
    ensures var vs := NotifyViews(views, attached, 0, id, key, v).value;
      forall j, id', key' :: 0 <= j < |views| && (id' != id || key' != key) ==>
        Read(vs[j], id', key') == Read(views[j], id', key')
  {
    var vs := NotifyViews(views, attached, 0, id, key, v).value;
    forall j | 0 <= j < |views| && j in attached
      ensures vs[j].keys == views[j].keys && Ids(vs[j].rows) == Ids(views[j].rows)
      ensures forall id', key' :: id' != id || key' != key ==> Read(vs[j], id', key') == Read(views[j], id', key')
    {
      assert Propagate(views[j], id, key, v) == Ok(vs[j]);
    }
  }

  /** The notification cannot fail when every registered view knows the property. */
  lemma NotifyViewsSucceeds(views: seq<Container>, attached: set<nat>, id: Id, key: Key, v: Value)
    requires forall j :: 0 <= j < |views| && j in attached ==> key in views[j].keys
    ensures NotifyViews(views, attached, 0, id, key, v).Ok?
  {
  }

  /** Replacing view i by its edited copy keeps every view's items and
      every cell other than the edited one. */
  lemma EditedViewsAgree(views: seq<Container>, i: nat, edited: Container, id: Id, key: Key, v: Value)
    requires i < |views| && SetValue(views[i], id, key, v) == Ok(edited)
    ensures |views[i := edited]| == |views|
    ensures forall j :: 0 <= j < |views| ==> (HasItem(views[i := edited][j].rows, id) <==> HasItem(views[j].rows, id))
    ensures forall j, id', key' :: 0 <= j < |views| && (id' != id || key' != key) ==>
      Read(views[i := edited][j], id', key') == Read(views[j], id', key')
  {
    var k :| 0 <= k < |views[i].rows| && views[i].rows[k].id == id;
    assert edited.rows[k].id == Ids(edited.rows)[k] == Ids(views[i].rows)[k] == id;
  }

  /** A change-notifying source fires its value-change event: every
      registered source -> view synchronizer copies the value into its view. */
  function NotifyRegistered(p: Provider, id: Id, key: Key, v: Value): (r: Result<Provider>)
    requires Valid(p)
    ensures r.Ok? ==> Valid(r.value)
    ensures r.Ok? ==> r.value == p.(views := r.value.views) && |r.value.views| == |p.views|
    ensures r.Ok? ==> forall j :: 0 <= j < |p.views| && j !in p.attached ==> r.value.views[j] == p.views[j]
    ensures r.Ok? ==> forall j :: 0 <= j < |p.views| && !HasItem(p.views[j].rows, id) ==> r.value.views[j] == p.views[j]
    ensures r.Ok? ==> forall j :: 0 <= j < |p.views| && j in p.attached && HasItem(p.views[j].rows, id) ==>
      Read(r.value.views[j], id, key) == Some(v)
    ensures r.Ok? ==> forall j :: 0 <= j < |p.views| && Read(p.views[j], id, key) == Some(v) ==>
      Read(r.value.views[j], id, key) == Some(v)
    ensures r.Ok? ==> forall j :: 0 <= j < |p.views| ==>
      r.value.views[j].keys == p.views[j].keys && Ids(r.value.views[j].rows) == Ids(p.views[j].rows)
    ensures r.Ok? ==> forall j, id', key' :: 0 <= j < |p.views| && (id' != id || key' != key) ==>
      Read(r.value.views[j], id', key') == Read(p.views[j], id', key')
    ensures r.Err? <==> exists j :: 0 <= j < |p.views| && j in p.attached && HasItem(p.views[j].rows, id) && key !in p.views[j].keys
    ensures (forall j :: 0 <= j < |p.views| && j in p.attached ==> key in p.views[j].keys) ==> r.Ok?
  {
    assert (forall j :: 0 <= j < |p.views| && j in p.attached ==> key in p.views[j].keys)
        ==> NotifyViews(p.views, p.attached, 0, id, key, v).Ok? by {
      if forall j :: 0 <= j < |p.views| && j in p.attached ==> key in p.views[j].keys {
        NotifyViewsSucceeds(p.views, p.attached, id, key, v);
      }
    }
    match NotifyViews(p.views, p.attached, 0, id, key, v)
    case Err(f) => Err(f)
    case Ok(vs) =>
      NotifyViewsKeepsValue(p.views, p.attached, id, key, v);
      NotifyViewsFrame(p.views, p.attached, id, key, v);
      Ok(p.(views := vs))
  }

  /** The part of an edit after the view has taken the value (`views1`
      holds the edited view): the view -> source synchronizer writes the
      value into the source if it differs there, and a changed notifying
      source passes it on to the registered source -> view synchronizers. */
  function ForwardEdit(p: Provider, views1: seq<Container>, id: Id, key: Key, v: Value): (r: Result<Provider>)
    requires Valid(p) && |views1| == |p.views|
    requires forall j :: 0 <= j < |views1| ==> Wf(views1[j])
    ensures r.Ok? ==> Valid(r.value)
    ensures r.Ok? ==> (r.value.current == p.current && r.value.attached == p.attached
                    && r.value.currentPageNumber == p.currentPageNumber && |r.value.views| == |p.views|)
    ensures r.Ok? ==> r.value.source == p.source.(data := r.value.source.data)
    ensures r.Ok? ==> (r.value.source.data.keys == p.source.data.keys
                    && Ids(r.value.source.data.rows) == Ids(p.source.data.rows))
    ensures r.Ok? && HasItem(p.source.data.rows, id) ==> Read(r.value.source.data, id, key) == Some(v)
    ensures r.Ok? ==> forall id', key' :: id' != id || key' != key ==>
      Read(r.value.source.data, id', key') == Read(p.source.data, id', key')
    ensures r.Ok? ==> (r.value.source.data != p.source.data <==>
      HasItem(p.source.data.rows, id) && Read(p.source.data, id, key) != Some(v))
    ensures r.Ok? ==> forall j :: 0 <= j < |views1| && j !in p.attached ==> r.value.views[j] == views1[j]
    ensures r.Ok? ==> forall j :: 0 <= j < |views1| && Read(views1[j], id, key) == Some(v) ==>
      Read(r.value.views[j], id, key) == Some(v)
    ensures r.Ok? && (!p.source.notifier || r.value.source.data == p.source.data) ==> r.value.views == views1
    ensures r.Ok? && p.source.notifier && r.value.source.data != p.source.data ==>
      forall j :: 0 <= j < |views1| && j in p.attached && HasItem(views1[j].rows, id) ==>
        Read(r.value.views[j], id, key) == Some(v)
    ensures r.Ok? ==> forall j :: 0 <= j < |views1| ==>
      r.value.views[j].keys == views1[j].keys && Ids(r.value.views[j].rows) == Ids(views1[j].rows)
    ensures r.Ok? ==> forall j, id', key' :: 0 <= j < |views1| && (id' != id || key' != key) ==>
      Read(r.value.views[j], id', key') == Read(views1[j], id', key')
    ensures ((HasItem(p.source.data.rows, id) ==> key in p.source.data.keys)
             && (forall j :: 0 <= j < |views1| && j in p.attached ==> key in views1[j].keys)) ==> r.Ok?
  {
    match Propagate(p.source.data, id, key, v)
    case Err(f) => Err(f)
    case Ok(d) =>
      var p1 := p.(views := views1, source := p.source.(data := d));
      if d == p.source.data || !p.source.notifier then Ok(p1) else NotifyRegistered(p1, id, key, v)
  }

  /** A value written into view i (a committed edit): the view changes, its
      view -> source synchronizer writes the value into the source if it
      differs there, and a changed notifying source passes it on to the
      registered source -> view synchronizers.  The echo of that last write
      back into the source is a no-op (`Sync.EchoIsNoOp`). */
  function EditView(p: Provider, i: nat, id: Id, key: Key, v: Value): (r: Result<Provider>)
    requires Valid(p) && i < |p.views|
    ensures !HasItem(p.views[i].rows, id) ==> r == Err(MissingItem(id))
    ensures HasItem(p.views[i].rows, id) && key !in p.views[i].keys ==> r == Err(MissingProperty(id, key))
    ensures r.Ok? ==> Valid(r.value)
    ensures r.Ok? ==> (r.value.current == p.current && r.value.attached == p.attached
                    && r.value.currentPageNumber == p.currentPageNumber && |r.value.views| == |p.views|)
    ensures r.Ok? ==> r.value.source == p.source.(data := r.value.source.data)
    ensures r.Ok? ==> (r.value.source.data.keys == p.source.data.keys
                    && Ids(r.value.source.data.rows) == Ids(p.source.data.rows))
    ensures r.Ok? ==> Read(r.value.views[i], id, key) == Some(v)
    ensures r.Ok? && HasItem(p.source.data.rows, id) ==> Read(r.value.source.data, id, key) == Some(v)
    ensures r.Ok? ==> forall id', key' :: id' != id || key' != key ==>
      Read(r.value.source.data, id', key') == Read(p.source.data, id', key')
    ensures r.Ok? ==> (r.value.source.data != p.source.data <==>
      HasItem(p.source.data.rows, id) && Read(p.source.data, id, key) != Some(v))
    ensures r.Ok? ==> forall j :: 0 <= j < |p.views| && j != i && j !in p.attached ==> r.value.views[j] == p.views[j]
    ensures r.Ok? ==> forall j :: 0 <= j < |p.views| ==>
      r.value.views[j].keys == p.views[j].keys && Ids(r.value.views[j].rows) == Ids(p.views[j].rows)
  {
    match SetValue(p.views[i], id, key, v)
    case Err(f) => Err(f)
    case Ok(edited) =>
      var views1 := p.views[i := edited];
      assert forall j :: 0 <= j < |p.views| ==>
        views1[j].keys == p.views[j].keys && Ids(views1[j].rows) == Ids(p.views[j].rows);
      ForwardEdit(p, views1, id, key, v)
  }

  /** An edit through view i that changes a notifying source is copied into
      every registered view holding the item. */
  lemma EditViewReachesRegistered(p: Provider, i: nat, id: Id, key: Key, v: Value)
    requires Valid(p) && i < |p.views|
    ensures var r := EditView(p, i, id, key, v);
      r.Ok? && p.source.notifier && r.value.source.data != p.source.data ==>
        forall j :: 0 <= j < |p.views| && j in p.attached && HasItem(p.views[j].rows, id) ==>
          Read(r.value.views[j], id, key) == Some(v)
  {
    if EditView(p, i, id, key, v).Ok? {
      EditedViewsAgree(p.views, i, SetValue(p.views[i], id, key, v).value, id, key, v);
    }
  }

  /** An edit through view i moves no other cell of any view. */
  lemma EditViewFrame(p: Provider, i: nat, id: Id, key: Key, v: Value)
    requires Valid(p) && i < |p.views|
    ensures var r := EditView(p, i, id, key, v);
      r.Ok? ==> forall j, id', key' :: 0 <= j < |p.views| && (id' != id || key' != key) ==>
        Read(r.value.views[j], id', key') == Read(p.views[j], id', key')
  {
    if EditView(p, i, id, key, v).Ok? {
      EditedViewsAgree(p.views, i, SetValue(p.views[i], id, key, v).value, id, key, v);
    }
  }


  /** A value written directly into the source (`setValue` on one of its
      properties): the source fires its change event whether or not the
      value is new, and every registered source -> view synchronizer copies
      it into its view when that view holds the item. */
  function SourceWrite(p: Provider, id: Id, key: Key, v: Value): (r: Result<Provider>)
    requires Valid(p)
    ensures !HasItem(p.source.data.rows, id) ==> r == Err(MissingItem(id))
    ensures HasItem(p.source.data.rows, id) && key !in p.source.data.keys ==> r == Err(MissingProperty(id, key))
    ensures r.Ok? ==> Valid(r.value)
    ensures r.Ok? ==> (r.value.current == p.current && r.value.attached == p.attached
                    && r.value.currentPageNumber == p.currentPageNumber && |r.value.views| == |p.views|)
    ensures r.Ok? ==> Read(r.value.source.data, id, key) == Some(v)
    ensures r.Ok? ==> r.value.source == p.source.(data := r.value.source.data)
    ensures r.Ok? ==> (r.value.source.data.keys == p.source.data.keys
                    && Ids(r.value.source.data.rows) == Ids(p.source.data.rows))
    ensures r.Ok? ==> forall j :: 0 <= j < |p.views| ==>
      r.value.views[j].keys == p.views[j].keys && Ids(r.value.views[j].rows) == Ids(p.views[j].rows)
    ensures r.Ok? ==> forall j :: 0 <= j < |p.views| && j !in p.attached ==> r.value.views[j] == p.views[j]
    ensures r.Ok? ==> forall j :: 0 <= j < |p.views| && !HasItem(p.views[j].rows, id) ==> r.value.views[j] == p.views[j]
    ensures r.Ok? ==> forall j :: 0 <= j < |p.views| && j in p.attached && HasItem(p.views[j].rows, id) ==>
      Read(r.value.views[j], id, key) == Some(v)
    ensures r.Ok? ==> forall id', key' :: id' != id || key' != key ==>
      Read(r.value.source.data, id', key') == Read(p.source.data, id', key')
    ensures r.Ok? ==> forall j, id', key' :: 0 <= j < |p.views| && (id' != id || key' != key) ==>
      Read(r.value.views[j], id', key') == Read(p.views[j], id', key')
  {
    match SetValue(p.source.data, id, key, v)
    case Err(f) => Err(f)
    case Ok(d) =>
      var p1 := p.(source := p.source.(data := d));
      if !p.source.notifier then Ok(p1) else NotifyRegistered(p1, id, key, v)
  }

  /** Writing the same value through a view a second time leaves the source
      untouched: the synchronizer sees an equal value and does not write. */
  lemma SecondIdenticalEditLeavesSource(p: Provider, i: nat, id: Id, key: Key, v: Value)
    requires Valid(p) && i < |p.views|
    requires HasItem(p.views[i].rows, id) && key in p.views[i].keys
    requires HasItem(p.source.data.rows, id) ==> key in p.source.data.keys
    requires forall j :: j in p.attached && j < |p.views| ==> key in p.views[j].keys
    ensures EditView(p, i, id, key, v).Ok?
    ensures var q := EditView(p, i, id, key, v).value;
      i < |q.views| && (EditView(q, i, id, key, v).Ok? ==> EditView(q, i, id, key, v).value.source == q.source)
  {
    var view := p.views[i];
    var e := SetValue(view, id, key, v).value;
    var views1 := p.views[i := e];
    assert forall j :: 0 <= j < |views1| && j in p.attached ==> key in views1[j].keys;
    var q := EditView(p, i, id, key, v).value;
    IndexOfSameIds(q.source.data.rows, p.source.data.rows, id);
  }

  /** An edit through any view, current or not, of an item and property the
      source holds is written into the source, provided every registered
      source -> view synchronizer's view knows the property. */
  lemma EditReachesSource(p: Provider, i: nat, id: Id, key: Key, v: Value)
    requires Valid(p) && i < |p.views|
    requires HasItem(p.views[i].rows, id) && key in p.views[i].keys
    requires HasItem(p.source.data.rows, id) && key in p.source.data.keys
    requires forall j :: j in p.attached ==> j < |p.views| && key in p.views[j].keys
    ensures EditView(p, i, id, key, v).Ok?
    ensures Read(EditView(p, i, id, key, v).value.source.data, id, key) == Some(v)
  {
    var view := p.views[i];
    var e := SetValue(view, id, key, v).value;
    var views1 := p.views[i := e];
    assert forall j :: 0 <= j < |views1| && j in p.attached ==> key in views1[j].keys;
  }

  /** Every item of a freshly opened view is an item of the source. */
  lemma OpenedViewHoldsSourceItems(p: Provider, pageNumber: int, id: Id)
    requires Valid(p) && GetPageContainer(p, pageNumber).1.Opened?
    requires HasItem(GetPageContainer(p, pageNumber).0.views[GetPageContainer(p, pageNumber).1.view].rows, id)
    ensures HasItem(p.source.data.rows, id)
  {
    var r := GetPageContainer(p, pageNumber);
    var view := r.0.views[r.1.view];
    var n :| 0 <= n < |view.rows| && view.rows[n].id == id;
    assert view.rows[n] in p.source.data.rows;
  }

  /** The view -> source synchronizer of a replaced view is never removed: after
      opening page a and then page b, an edit made through the page-a view
      still reaches the source, although that view is neither current nor
      registered for source changes. */
  lemma RetainedViewStillWritesThrough(p: Provider, a: int, b: int, id: Id, key: Key, v: Value)
    requires Valid(p) && 1 <= a <= LastPageNumber(p) && 1 <= b <= LastPageNumber(p)
    requires key in p.source.data.keys
    ensures var r1 := GetPageContainer(p, a);
      var r2 := GetPageContainer(r1.0, b);
      && r1.1.Opened? && r2.1.Opened? && r1.1.view < |r2.0.views|
      && r2.0.current != Some(r1.1.view) && r1.1.view !in r2.0.attached
      && (HasItem(r1.0.views[r1.1.view].rows, id) ==>
            && EditView(r2.0, r1.1.view, id, key, v).Ok?
            && Read(EditView(r2.0, r1.1.view, id, key, v).value.source.data, id, key) == Some(v))
  {
    var r1 := GetPageContainer(p, a);
    var r2 := GetPageContainer(r1.0, b);
    var prev := r1.1.view;
    assert r2.0.views[..|r1.0.views|] == r1.0.views;
    assert r2.0.views[prev] == r1.0.views[prev];
    if HasItem(r1.0.views[prev].rows, id) {
      OpenedViewHoldsSourceItems(p, a, id);
      EditReachesSource(r2.0, prev, id, key, v);
    }
  }
}

=== FILE: rich_table.dfy ===
/** RichTable: a table that shows one page of an indexed container at a time
    through a PageContainerProvider, with a paginator (page navigation, page
    size, "go to page" text) and a row hider (hide the selected rows of the
    page, show them again).

    The table's listener wiring is fixed: a data-source change notifies the
    paginator (which re-opens its current page) and the row hider (which
    resets its counter); a page change notifies the paginator's own display
    and the row hider (which resets its counter). */
module RichTable {
  import opened Base
  import opened Containers
  import opened Window
  import opened PageView
  import opened PageProvider
  import opened Text

  // ---- the paginator --------------------------------------------------------

  /** The choices of the items-per-page box; the first is the initial page size. */
  const ItemsPerPageValues: seq<int> := [10, 20, 30, 50, 100, 200, 300, 500, 1000]

  /** The paginator's state: the one-based current page and the page size. */
  datatype Paginator = Paginator(currentPage: int, itemsPerPage: int)

  /** `setPage`'s clamp of a requested page into [1, last]. */
  function ClampPage(page: int, last: int): (r: int)
    ensures last >= 1 ==> 1 <= r <= last
    ensures 1 <= page <= last ==> r == page
    ensures page < 1 ==> r == 1
  {
    if page < 1 then 1 else if page > last then last else page
  }

  function Distance(a: int, b: int): nat { if a <= b then b - a else a - b }

  /** The clamp picks the page of [1, last] nearest to the request, and no
      other page is as near. */
  lemma ClampIsNearest(page: int, last: int, q: int)
    requires 1 <= q <= last
    ensures Distance(ClampPage(page, last), page) <= Distance(q, page)
    ensures Distance(ClampPage(page, last), page) == Distance(q, page) ==> q == ClampPage(page, last)
  {
  }

  /** The enabled state of the four navigation buttons. */
  datatype Buttons = Buttons(first: bool, previous: bool, next: bool, last: bool)

  /** What the paginator's `updateUI` displays. */
  datatype Controls = Controls(itemsPerPage: int, pageText: string, buttons: Buttons)

  /** `getCurrentPageText`: "<current> / <last>". */
  function PageText(currentPage: int, lastPage: int): (s: string)
    ensures |s| >= 5 && IsDigit(s[0]) == (currentPage >= 0) && IsDigit(s[|s| - 1])
  {
    IntToString(currentPage) + (" / " + IntToString(lastPage))
  }

  /** The page text of a page number that fits an `int` parses back to it,
      both with the parse as written and with the corrected one: pressing
      "GO" on the text as shown keeps the page. */
  lemma PageTextParsesBack(currentPage: int, lastPage: int, fallback: int)
    requires 0 <= currentPage <= MaxInt
    ensures ParsePageTextAsWritten(PageText(currentPage, lastPage), fallback) == Ok(currentPage)
    ensures ParsePageToGoText(PageText(currentPage, lastPage), fallback) == currentPage
  {
    var digits := NatToString(currentPage);
    var last := IntToString(lastPage);
    var rest := " / " + last;
    assert PageText(currentPage, lastPage) == digits + rest;
    assert DigitsValue(digits) == currentPage;
    assert rest[0] == ' ' && rest[|rest| - 1] == last[|last| - 1];
    ParseDigitsThenTail(digits, rest, fallback);
  }

  /** The page text is the current page, " / ", then the last page's decimal
      digits, and that last part on its own reads back as the last page. */
  lemma PageTextEndsWithLast(currentPage: int, lastPage: int, fallback: int)
    requires 0 <= lastPage
    ensures var s, n := PageText(currentPage, lastPage), |IntToString(currentPage)|;
      && s[..n] == IntToString(currentPage)
      && s[n..n + 3] == " / "
      && s[n + 3..] == NatToString(lastPage)
    ensures var s, n := PageText(currentPage, lastPage), |IntToString(currentPage)|;
      lastPage <= MaxInt ==> ParsePageToGoText(s[n + 3..], fallback) == lastPage
  {
    var s, head, last := PageText(currentPage, lastPage), IntToString(currentPage), NatToString(lastPage);
    assert s == head + " / " + last;
    var n := |head|;
    assert s[..n] == head && s[n..n + 3] == " / " && s[n + 3..] == last;
    if lastPage <= MaxInt {
      NatTextParses(lastPage, fallback);
    }
  }

  // ---- the table ------------------------------------------------------------

  /** A container handed to the table: an indexed one (with the optional
      interfaces it implements) or one without positional access. */
  datatype DataSource = IndexedSource(source: Source) | UnindexedSource

  /** What the Table superclass currently shows: nothing (a null data
      source), a page view of the provider, or a data source as given. */
  datatype Display = NoData | ShowsPage(view: nat) | ShowsSource(ds: DataSource)

  datatype Table = Table(
    paginated: bool,
    original: Option<DataSource>,  // `originalContainer`
    display: Display,
    provider: Provider,
    paginator: Paginator,
    hiddenRows: int)               // the row hider's counter

  /** How an operation ended: normally or with an exception that escapes it. */
  datatype Outcome = Done | Threw(fault: Fault)

  datatype Step = Step(table: Table, outcome: Outcome)

  predicate SourceWf(ds: DataSource) { ds.IndexedSource? ==> Wf(ds.source.data) }

  /** The table's invariant: the provider's, a page number of at least 1, a
      non-negative hidden-row counter, a displayed view that exists, and
      well-formed indexed containers. */
  predicate TableValid(t: Table) {
    && Valid(t.provider)
    && t.paginator.currentPage >= 1
    && t.hiddenRows >= 0
    && (t.display.ShowsPage? ==> t.display.view < |t.provider.views|)
    && (t.display.ShowsSource? ==> SourceWf(t.display.ds))
    && (t.original.Some? ==> SourceWf(t.original.value))
  }

  /** View `view` of the provider holds exactly the source window of the
      one-based `page`, with the source's schema. */
  predicate PageWindowShown(p: Provider, view: nat, page: int) {
    && view < |p.views|
    && var v, src := p.views[view], p.source.data;
       var first, last := FirstRowIdx(page - 1, p.itemsPerPage), LastRowIdx(page - 1, p.itemsPerPage, |src.rows|);
       && v.keys == src.keys && v.types == src.types
       && v.rows == (if 0 <= first < last then src.rows[first..last] else [])
  }

  /** The table shows a page view holding exactly the source window of the
      paginator's current page. */
  predicate ShowsPageWindow(t: Table) {
    t.display.ShowsPage? && PageWindowShown(t.provider, t.display.view, t.paginator.currentPage)
  }

  /** `getContainerDataSource()`: a page view is itself an IndexedContainer,
      which notifies value changes and sorts. */
  function CurrentDataSource(t: Table): (r: Option<DataSource>)
    requires TableValid(t)
    ensures r.Some? ==> SourceWf(r.value)
    ensures r.None? <==> t.display.NoData?
  {
    match t.display
    case NoData => None
    case ShowsSource(ds) => Some(ds)
    case ShowsPage(i) => Some(IndexedSource(Source(t.provider.views[i], true, true)))
  }

  /** What the Table superclass shows once given a data source. */
  function DisplayOf(ds: Option<DataSource>): (d: Display)
    ensures d.NoData? <==> ds.None?
  {
    match ds
    case None => NoData
    case Some(x) => ShowsSource(x)
  }

  /** `setPage`: the requested page is clamped into [1, last], the provider
      opens it and the table shows it; the page change resets the row
      hider's counter. */
  function SetPage(t: Table, page: int): (r: Table)
    requires TableValid(t)
    ensures TableValid(r)
    ensures 1 <= r.paginator.currentPage <= LastPageNumber(t.provider)
    ensures 1 <= page <= LastPageNumber(t.provider) ==> r.paginator.currentPage == page
    ensures page < 1 ==> r.paginator.currentPage == 1
    ensures page > LastPageNumber(t.provider) ==> r.paginator.currentPage == LastPageNumber(t.provider)
    ensures r.paginator.itemsPerPage == t.paginator.itemsPerPage
    ensures r.paginated == t.paginated && r.original == t.original
    ensures r.provider.source == t.provider.source && r.provider.itemsPerPage == t.provider.itemsPerPage
    ensures r.hiddenRows == 0
    ensures ShowsPageWindow(r)
    ensures r.display == ShowsPage(|t.provider.views|)
    ensures r.provider.current == Some(r.display.view)
    ensures r.provider.currentPageNumber == r.paginator.currentPage - 1
    ensures |r.provider.views| == |t.provider.views| + 1 && r.provider.views[..|t.provider.views|] == t.provider.views
    ensures r.provider.attached <= {|t.provider.views|}
  {
    var cur := ClampPage(page, LastPageNumber(t.provider));
    var req := GetPageContainer(t.provider, cur);
    assert req.1.Opened?;
    t.(display := ShowsPage(req.1.view), provider := req.0,
       paginator := t.paginator.(currentPage := cur), hiddenRows := 0)
  }

  /** `goToFirstPage`. */
  function FirstPage(t: Table): (r: Table)
    requires TableValid(t)
    ensures TableValid(r) && ShowsPageWindow(r) && r.paginator.currentPage == 1
  {
    SetPage(t, 1)
  }

  /** `goToPreviousPage`: one page back, staying on page 1. */
  function PreviousPage(t: Table): (r: Table)
    requires TableValid(t)
    ensures TableValid(r) && ShowsPageWindow(r)
    ensures 1 < t.paginator.currentPage <= LastPageNumber(t.provider) ==>
      r.paginator.currentPage == t.paginator.currentPage - 1
    ensures t.paginator.currentPage == 1 ==> r.paginator.currentPage == 1
  {
    SetPage(t, t.paginator.currentPage - 1)
  }

  /** `goToNextPage`: one page on, staying on the last page. */
  function NextPage(t: Table): (r: Table)
    requires TableValid(t)
    ensures TableValid(r) && ShowsPageWindow(r)
    ensures t.paginator.currentPage < LastPageNumber(t.provider) ==>
      r.paginator.currentPage == t.paginator.currentPage + 1
    ensures t.paginator.currentPage >= LastPageNumber(t.provider) ==>
      r.paginator.currentPage == LastPageNumber(t.provider)
  {
    SetPage(t, t.paginator.currentPage + 1)
  }

  /** `goToLastPage`. */
  function LastPage(t: Table): (r: Table)
    requires TableValid(t)
    ensures TableValid(r) && ShowsPageWindow(r)
    ensures r.paginator.currentPage == LastPageNumber(t.provider)
  {
    SetPage(t, LastPageNumber(t.provider))
  }

  /** The "GO" button: the page typed into the page text, through the
      corrected parse (see `Text.ParsePageToGoText`). */
  function GoToPage(t: Table, text: string): (r: Table)
    requires TableValid(t)
    ensures TableValid(r) && ShowsPageWindow(r)
    ensures var d := LeadingDigits(Trim(text));
      |d| > 0 && 1 <= DigitsValue(d) <= MaxInt && DigitsValue(d) <= LastPageNumber(t.provider) ==>
        r.paginator.currentPage == DigitsValue(d)
    ensures var d := LeadingDigits(Trim(text));
      |d| > 0 && DigitsValue(d) <= MaxInt ==>
        r.paginator.currentPage == ClampPage(DigitsValue(d), LastPageNumber(t.provider))
    ensures |LeadingDigits(Trim(text))| == 0 ==>
      r.paginator.currentPage == ClampPage(t.paginator.currentPage, LastPageNumber(t.provider))
  {
    SetPage(t, ParsePageToGoText(text, t.paginator.currentPage))
  }

  /** The "GO" button as written: a non-empty text without any digit makes
      the parse throw, and the exception leaves the table as it was. */
  function GoToPageAsWritten(t: Table, text: string): (r: Step)
    requires TableValid(t)
    ensures TableValid(r.table)
    ensures r.outcome.Threw? <==> |Trim(text)| > 0 && !HasDigit(Trim(text))
    ensures r.outcome.Threw? ==> r == Step(t, Threw(EmptySplit))
    ensures r.outcome.Done? ==> r.table == GoToPage(t, text)
  {
    match ParsePageTextAsWritten(text, t.paginator.currentPage)
    case Err(f) => Step(t, Threw(f))
    case Ok(n) =>
      CorrectedParseAgrees(text, t.paginator.currentPage);
      Step(SetPage(t, n), Done)
  }

  /** The input that shows the defect at the table: "abc" throws as written,
      while the corrected button stays on the current page. */
  lemma GoToNoDigitTextThrows(t: Table)
    requires TableValid(t) && 1 <= t.paginator.currentPage <= LastPageNumber(t.provider)
    ensures GoToPageAsWritten(t, "abc") == Step(t, Threw(EmptySplit))
    ensures GoToPage(t, "abc").paginator.currentPage == t.paginator.currentPage
  {
    NoDigitTextThrows();
    assert ParsePageToGoText("abc", t.paginator.currentPage) == t.paginator.currentPage by {
      assert Trim("abc") == "abc" by { TrimVisible("abc"); }
      assert LeadingDigits("abc") == [];
    }
  }

  /** `updateUI` of the paginator. */
  function PaginatorControls(t: Table): (c: Controls)
    ensures c.itemsPerPage == t.paginator.itemsPerPage
    ensures c.pageText == PageText(t.paginator.currentPage, LastPageNumber(t.provider))
    ensures c.buttons.first == c.buttons.previous && c.buttons.next == c.buttons.last
    ensures c.buttons.first <==> t.paginator.currentPage != 1
    ensures c.buttons.last <==> t.paginator.currentPage != LastPageNumber(t.provider)
  {
    var isFirst := t.paginator.currentPage == 1;
    var isLast := t.paginator.currentPage == LastPageNumber(t.provider);
    Controls(t.paginator.itemsPerPage, PageText(t.paginator.currentPage, LastPageNumber(t.provider)),
             Buttons(!isFirst, !isFirst, !isLast, !isLast))
  }

  /** On a page inside [1, last], each navigation button is enabled exactly
      when pressing it would move to another page. */
  lemma ButtonsEnabledIffTheyMove(t: Table)
    requires TableValid(t) && t.paginator.currentPage <= LastPageNumber(t.provider)
    ensures var b, cur := PaginatorControls(t).buttons, t.paginator.currentPage;
      && (b.first <==> FirstPage(t).paginator.currentPage != cur)
      && (b.previous <==> PreviousPage(t).paginator.currentPage != cur)
      && (b.next <==> NextPage(t).paginator.currentPage != cur)
      && (b.last <==> LastPage(t).paginator.currentPage != cur)
  {
  }

  /** Pressing "GO" on the page text as the paginator shows it re-opens the
      current page (clamped into the pages that exist now). */
  lemma GoToShownTextStays(t: Table)
    requires TableValid(t) && t.paginator.currentPage <= MaxInt
    ensures GoToPage(t, PaginatorControls(t).pageText).paginator.currentPage
         == ClampPage(t.paginator.currentPage, LastPageNumber(t.provider))
  {
    PageTextParsesBack(t.paginator.currentPage, LastPageNumber(t.provider), t.paginator.currentPage);
  }

  /** `notifyDataSourceChanged`: the paginator re-opens its current page,
      clamped into the pages the provider has now, and the row hider resets
      its counter. */
  function NotifyDataSourceChanged(t: Table): (r: Table)
    requires TableValid(t)
    ensures TableValid(r) && ShowsPageWindow(r) && r.hiddenRows == 0
    ensures r.paginator.currentPage == ClampPage(t.paginator.currentPage, LastPageNumber(t.provider))
    ensures t.paginator.currentPage <= LastPageNumber(t.provider) ==> r.paginator.currentPage == t.paginator.currentPage
    ensures r.paginator.itemsPerPage == t.paginator.itemsPerPage
    ensures r.paginated == t.paginated && r.original == t.original
    ensures r.provider.source == t.provider.source && r.provider.itemsPerPage == t.provider.itemsPerPage
  {
    var paged := SetPage(t, t.paginator.currentPage);
    paged.(hiddenRows := 0)
  }

  /** The indexed branch of `initializePageProvider`: a new provider over
      `s` with the paginator's page size, asked for the paginator's page;
      the table shows the view, or nothing when the page does not exist. */
  function PaginateSource(s: Source, pg: Paginator): (r: (Provider, Display))
    requires Wf(s.data) && pg.currentPage >= 1
    ensures Valid(r.0) && r.0.source == s && r.0.itemsPerPage == pg.itemsPerPage
    ensures r.1.NoData? || r.1.ShowsPage?
    ensures r.1.ShowsPage? <==> pg.currentPage <= LastPageNumber(r.0)
    ensures r.1.ShowsPage? ==> r.0.current == Some(r.1.view) && PageWindowShown(r.0, r.1.view, pg.currentPage)
  {
    var req := GetPageContainer(NewProvider(s, pg.itemsPerPage), pg.currentPage);
    (req.0, if req.1.Opened? then ShowsPage(req.1.view) else NoData)
  }

  /** `initializePageProvider`: `originalContainer` is overwritten before
      the guard; an indexed container gets a new provider with the
      paginator's page size, and the table shows the paginator's current
      page of it (nothing, when that page no longer exists); any other
      container, null included, is refused. */
  function InitializePageProvider(t: Table, ds: Option<DataSource>): (r: Step)
    requires TableValid(t) && (ds.Some? ==> SourceWf(ds.value))
    ensures TableValid(r.table)
    ensures r.table.original == ds
    ensures r.outcome.Threw? <==> !(ds.Some? && ds.value.IndexedSource?)
    ensures r.outcome.Threw? ==> r.outcome.fault == NotIndexed && r.table == t.(original := ds)
    ensures r.table.paginated == t.paginated && r.table.paginator == t.paginator && r.table.hiddenRows == t.hiddenRows
    ensures r.outcome.Done? ==>
      && r.table.provider.source == ds.value.source
      && r.table.provider.itemsPerPage == t.paginator.itemsPerPage
    ensures r.outcome.Done? ==>
      (ShowsPageWindow(r.table) <==> t.paginator.currentPage <= LastPageNumber(r.table.provider))
    ensures r.outcome.Done? && !ShowsPageWindow(r.table) ==> r.table.display == NoData
  {
    var t1 := t.(original := ds);
    match ds
    case Some(IndexedSource(s)) =>
      var (p, display) := PaginateSource(s, t.paginator);
      Step(t1.(provider := p, display := display), Done)
    case _ => Step(t1, Threw(NotIndexed))
  }

  /** `setContainerDataSource`: a paginated table paginates the new
      container, an unpaginated one hands it to the Table superclass; then
      the data-source change is announced.  Because the paginator's listener
      re-opens its page whether or not the table is paginated, an
      unpaginated table ends up showing a page of the provider's old
      source instead of the container it was given. */
  function SetContainerDataSource(t: Table, ds: Option<DataSource>): (r: Step)
    requires TableValid(t) && (ds.Some? ==> SourceWf(ds.value))
    ensures TableValid(r.table)
    ensures r.outcome.Threw? <==> t.paginated && !(ds.Some? && ds.value.IndexedSource?)
    ensures r.outcome.Threw? ==> r.outcome.fault == NotIndexed && r.table == t.(original := ds)
    ensures r.table.paginated == t.paginated && r.table.paginator.itemsPerPage == t.paginator.itemsPerPage
    ensures t.paginated ==> r.table.original == ds
    ensures r.outcome.Done? ==> r.table.hiddenRows == 0 && ShowsPageWindow(r.table)
    ensures r.outcome.Done? && t.paginated ==>
      && r.table.provider.source == ds.value.source
      && r.table.provider.itemsPerPage == t.paginator.itemsPerPage
      && r.table.paginator.currentPage == ClampPage(t.paginator.currentPage, LastPageNumber(r.table.provider))
    ensures !t.paginated ==>
      && r.outcome.Done? && r.table.original == t.original
      && r.table.provider.source == t.provider.source
  {
    if t.paginated then
      var s := InitializePageProvider(t, ds);
      if s.outcome.Threw? then s else Step(NotifyDataSourceChanged(s.table), Done)
    else
      Step(NotifyDataSourceChanged(t.(display := DisplayOf(ds))), Done)
  }

  /** `setPaginated`: nothing happens when the flag is unchanged; turning
      pagination on paginates whatever the table shows, turning it off
      shows `originalContainer` again.  No data-source change is announced. */
  function SetPaginated(t: Table, paginated: bool): (r: Step)
    requires TableValid(t)
    ensures TableValid(r.table)
    ensures paginated == t.paginated ==> r == Step(t, Done)
    ensures r.table.paginated == paginated
    ensures paginated && !t.paginated ==>
      && r.table.original == CurrentDataSource(t)
      && (r.outcome.Threw? <==> !(CurrentDataSource(t).Some? && CurrentDataSource(t).value.IndexedSource?))
    ensures paginated && !t.paginated && r.outcome.Done? ==>
      r.table.provider.source == CurrentDataSource(t).value.source
    ensures !paginated && t.paginated ==>
      r.outcome.Done? && r.table.display == DisplayOf(t.original) && r.table.original == t.original
  {
    if paginated == t.paginated then Step(t, Done)
    else if paginated then InitializePageProvider(t.(paginated := true), CurrentDataSource(t))
    else Step(t.(paginated := false, display := DisplayOf(t.original)), Done)
  }

  /** `changeItemsPerPage`: the same size is a no-op; a new size restarts at
      page 1 and re-sets `originalContainer` as the data source. */
  function ChangeItemsPerPage(t: Table, itemsPerPage: int): (r: Step)
    requires TableValid(t)
    ensures TableValid(r.table)
    ensures itemsPerPage == t.paginator.itemsPerPage ==> r == Step(t, Done)
    ensures itemsPerPage != t.paginator.itemsPerPage ==> r.table.paginator.itemsPerPage == itemsPerPage
    ensures itemsPerPage != t.paginator.itemsPerPage && r.outcome.Done? ==>
      r.table.paginator.currentPage == 1 && r.table.hiddenRows == 0 && ShowsPageWindow(r.table)
    ensures itemsPerPage != t.paginator.itemsPerPage && t.paginated && r.outcome.Done? ==>
      && t.original.Some? && t.original.value.IndexedSource?
      && r.table.provider.itemsPerPage == itemsPerPage && r.table.provider.source == t.original.value.source
    ensures itemsPerPage != t.paginator.itemsPerPage && !t.paginated ==>
      && r.outcome.Done?
      && r.table.provider.itemsPerPage == t.provider.itemsPerPage && r.table.provider.source == t.provider.source
    ensures r.outcome.Threw? <==>
      itemsPerPage != t.paginator.itemsPerPage && t.paginated && !(t.original.Some? && t.original.value.IndexedSource?)
  {
    if itemsPerPage == t.paginator.itemsPerPage then Step(t, Done)
    else SetContainerDataSource(t.(paginator := Paginator(1, itemsPerPage)), t.original)
  }

  /** `sort` on a paginated table: the provider sorts the source (the
      source's own order is the permutation `perm`), then the data-source
      change re-opens the current page over the sorted rows. */
  function SortTable(t: Table, key: Key, ascending: bool, perm: seq<int>): (r: Step)
    requires TableValid(t) && t.paginated && IsPermutation(perm, |t.provider.source.data.rows|)
    ensures TableValid(r.table)
    ensures r.outcome.Threw? <==> !t.provider.source.sortable
    ensures r.outcome.Threw? ==> r.outcome.fault == UnsupportedSort && r.table == t
    ensures r.outcome.Done? ==>
      && |r.table.provider.source.data.rows| == |t.provider.source.data.rows|
      && (forall i :: 0 <= i < |perm| ==> r.table.provider.source.data.rows[i] == t.provider.source.data.rows[perm[i]])
    ensures r.outcome.Done? ==> r.table.hiddenRows == 0 && ShowsPageWindow(r.table)
    ensures r.outcome.Done? ==> r.table.paginator.currentPage == t.paginator.currentPage || t.paginator.currentPage > LastPageNumber(t.provider)
  {
    match Sort(t.provider, key, ascending, perm)
    case Err(f) => Step(t, Threw(f))
    case Ok(p) => Step(NotifyDataSourceChanged(t.(provider := p)), Done)
  }

  // ---- the row hider --------------------------------------------------------

  const ShowButtonLabel: string := "Show hidden"

  /** The caption of the "show" button: the label, followed by " (n)" while
      n > 0 rows are counted as hidden. */
  function ShowCaption(hidden: int): (s: string)
    ensures |s| >= |ShowButtonLabel| && s[..|ShowButtonLabel|] == ShowButtonLabel
    ensures |s| > |ShowButtonLabel| <==> hidden > 0
  {
    ShowButtonLabel + (if hidden > 0 then " (" + IntToString(hidden) + ")" else "")
  }

  /** The count sits between the label's " (" and the closing ")". */
  lemma CaptionCount(hidden: int)
    requires hidden > 0
    ensures var s, n := ShowCaption(hidden), |ShowButtonLabel| + 2;
      n < |s| && s[n..|s| - 1] == NatToString(hidden)
  {
    var digits := NatToString(hidden);
    var s := ShowCaption(hidden);
    assert s == (ShowButtonLabel + " (") + digits + ")";
  }

  /** Different positive counts give different captions. */
  lemma ShowCaptionInjective(a: int, b: int)
    requires a > 0 && b > 0 && ShowCaption(a) == ShowCaption(b)
    ensures a == b
  {
    CaptionCount(a);
    CaptionCount(b);
    assert NatToString(a) == NatToString(b);
    assert DigitsValue(NatToString(a)) == a && DigitsValue(NatToString(b)) == b;
  }

  /** What the row hider's `updateUI` displays. */
  datatype HiderControls = HiderControls(hideEnabled: bool, showEnabled: bool, showCaption: string)

  /** `updateUI` of the row hider; `selection` is the table's value when it
      is a collection of item ids, None when it is null or a single id.  A
      multi-select table's value is a set, so the sequence lists each
      selected id once, in any order. */
  function HiderUI(t: Table, selection: Option<seq<Id>>): (c: HiderControls)
    ensures c.hideEnabled <==> selection.Some? && |selection.value| > 0
    ensures c.showEnabled <==> t.hiddenRows > 0
    ensures c.showCaption == ShowCaption(t.hiddenRows)
  {
    HiderControls(selection.Some? && |selection.value| > 0, t.hiddenRows > 0, ShowCaption(t.hiddenRows))
  }

  /** `hideSelectedRows`: a selection that is a collection is hidden from the
      provider's current view and its size is added to the counter.  As in
      `HiderUI`, the sequence lists each selected id once. */
  function HideSelected(t: Table, selection: Option<seq<Id>>): (r: Step)
    requires TableValid(t)
    ensures TableValid(r.table)
    ensures selection.None? ==> r == Step(t, Done)
    ensures selection.Some? && t.provider.current.None? ==> r == Step(t, Threw(NoOpenPage))
    ensures r.outcome.Done? && selection.Some? ==>
      && r.table == t.(provider := r.table.provider, hiddenRows := t.hiddenRows + |selection.value|)
      && r.table.provider == t.provider.(views := r.table.provider.views)
      && |r.table.provider.views| == |t.provider.views|
      && r.table.provider.views[t.provider.current.value].rows
         == Without(t.provider.views[t.provider.current.value].rows, SetOf(selection.value))
  {
    match selection
    case None => Step(t, Done)
    case Some(ids) =>
      match HideRowsOf(t.provider, ids)
      case Err(f) => Step(t, Threw(f))
      case Ok(p) => Step(t.(provider := p, hiddenRows := t.hiddenRows + |ids|), Done)
  }

  /** `showHiddenRows` of the row hider: only while rows are counted as
      hidden, the provider refills its current view and the counter resets. */
  function ShowHidden(t: Table): (r: Step)
    requires TableValid(t)
    ensures TableValid(r.table)
    ensures t.hiddenRows == 0 ==> r == Step(t, Done)
    ensures t.hiddenRows > 0 && t.provider.current.None? ==> r == Step(t, Threw(NoOpenPage))
    ensures r.outcome.Threw? && t.hiddenRows > 0 && t.provider.current.Some? ==>
      && r.table == t.(provider := r.table.provider)
      && |r.table.provider.views| == |t.provider.views|
      && var src := t.provider.source.data;
         var first := FirstRowIdx(t.provider.currentPageNumber, t.provider.itemsPerPage);
         var rows := r.table.provider.views[t.provider.current.value].rows;
         && (first < 0 ==> rows == [])
         && (0 <= first ==> first < |src.rows| && Ids(rows) == [src.rows[first].id])
    ensures r.outcome.Done? && t.hiddenRows > 0 ==>
      && r.table.hiddenRows == 0
      && r.table == t.(provider := r.table.provider, hiddenRows := 0)
      && r.table.provider == t.provider.(views := r.table.provider.views)
      && |r.table.provider.views| == |t.provider.views|
      && t.provider.current.Some?
      && var src := t.provider.source.data;
         var first := FirstRowIdx(t.provider.currentPageNumber, t.provider.itemsPerPage);
         var last := LastRowIdx(t.provider.currentPageNumber, t.provider.itemsPerPage, |src.rows|);
         Ids(r.table.provider.views[t.provider.current.value].rows)
           == if 0 <= first < last then Ids(src.rows[first..last]) else []
  {
    if t.hiddenRows <= 0 then Step(t, Done)
    else
      match ShowHiddenRows(t.provider)
      case (p, Some(f)) => Step(t.(provider := p), Threw(f))
      case (p, None) => Step(t.(provider := p, hiddenRows := 0), Done)
  }


  /** Hiding a non-empty selection and then showing the hidden rows leaves the
      counter at zero and the current view equal to a fresh copy of its window. */
  lemma HideThenShowRestoresView(t: Table, ids: seq<Id>)
    requires TableValid(t) && t.provider.current.Some? && |ids| > 0
    requires t.provider.views[t.provider.current.value].keys == t.provider.source.data.keys
    requires t.provider.views[t.provider.current.value].types == t.provider.source.data.types
    requires Materialize(t.provider.source.data, t.provider.currentPageNumber, t.provider.itemsPerPage).Ok?
    ensures HideSelected(t, Some(ids)).outcome.Done?
    ensures var h := HideSelected(t, Some(ids)).table;
      && h.hiddenRows > 0
      && ShowHidden(h).outcome.Done?
      && ShowHidden(h).table.hiddenRows == 0
      && ShowHidden(h).table.provider.views[t.provider.current.value]
         == Materialize(t.provider.source.data, t.provider.currentPageNumber, t.provider.itemsPerPage).value
  {
    HideThenShowIsFreshOpen(t.provider, ids);
  }

  /** Hiding the same selection twice counts its rows twice, although the
      second time removes nothing more from the view. */
  lemma HideTwiceCountsTwice(t: Table, ids: seq<Id>)
    requires TableValid(t) && t.provider.current.Some?
    ensures var h1 := HideSelected(t, Some(ids));
      var h2 := HideSelected(h1.table, Some(ids));
      && h1.outcome.Done? && h2.outcome.Done?
      && h2.table.hiddenRows == t.hiddenRows + 2 * |ids|
      && h2.table.provider == h1.table.provider
  {
    var i := t.provider.current.value;
    var p1 := HideRowsOf(t.provider, ids).value;
    assert p1.views[i] == HideRows(t.provider.views[i], ids);
    HideRowsIdempotent(t.provider.views[i], ids);
    assert p1.views[i := HideRows(p1.views[i], ids)] == p1.views;
  }

  /** A page change and a data-source change both reset the counter. */
  lemma PageAndSourceChangesResetCounter(t: Table, page: int)
    requires TableValid(t) && t.hiddenRows > 0
    ensures SetPage(t, page).hiddenRows == 0
    ensures NotifyDataSourceChanged(t).hiddenRows == 0
    ensures !HiderUI(SetPage(t, page), None).showEnabled
    ensures HiderUI(SetPage(t, page), None).showCaption == ShowButtonLabel
  {
  }

  // ---- construction ---------------------------------------------------------

  /** The Table superclass's own empty IndexedContainer. */
  const EmptyIndexedContainer: Source := Source(Container([], map[], []), true, true)

  /** A new RichTable: the superclass starts with an empty IndexedContainer,
      the lazily created provider has page size 0, and the constructor turns
      pagination on, which paginates that container with the paginator's
      initial page size and opens page 1. */
  function NewTable(): (t: Table)
    ensures TableValid(t) && t.paginated && t.hiddenRows == 0
    ensures t.paginator == Paginator(1, ItemsPerPageValues[0])
    ensures t.original == Some(IndexedSource(EmptyIndexedContainer))
    ensures ShowsPageWindow(t) && t.provider.views[t.display.view].rows == []
  {
    var lazyProvider := NewProvider(EmptyIndexedContainer, 0);
    var pre := Table(false, None, ShowsSource(IndexedSource(EmptyIndexedContainer)), lazyProvider,
                     Paginator(1, ItemsPerPageValues[0]), 0);
    SetPaginated(pre, true).table
  }
}

=== FILE: sync.dfy ===
/** The DataSynchronizer: the value-change listener that copies a changed
    cell into a destination container.  The change event is the explicit
    triple (item id, property id, new value). */
module Sync {
  import opened Base
  import opened Containers

  /** The synchronizer's comparison: a null current value differs from the
      new value exactly when the new value is not null (a reference test);
      otherwise the current value's `equals` decides. */
  function Differs(current: Value, incoming: Value): (r: bool)
    ensures r <==> current != incoming
  {
    match current
    case Null => incoming != Null
    case Obj(p) => !(incoming.Obj? && incoming.payload == p)
  }

  /** `valueChange` delivered to a synchronizer whose destination is `dest`:
      an item missing from the destination is ignored; a property missing
      from it dereferences null; the value is written only when it differs. */
  function Propagate(dest: Container, id: Id, key: Key, v: Value): (r: Result<Container>)
    ensures !HasItem(dest.rows, id) ==> r == Ok(dest)
    ensures r.Err? <==> HasItem(dest.rows, id) && key !in dest.keys
    ensures r.Err? ==> r.fault == MissingProperty(id, key)
    ensures r.Ok? ==> r.value.keys == dest.keys && r.value.types == dest.types
    ensures r.Ok? ==> Ids(r.value.rows) == Ids(dest.rows)
    ensures r.Ok? && HasItem(dest.rows, id) ==> Read(r.value, id, key) == Some(v)
    ensures r.Ok? ==> forall id', key' :: id' != id || key' != key ==> Read(r.value, id', key') == Read(dest, id', key')
    ensures r.Ok? ==> (r.value != dest <==> HasItem(dest.rows, id) && Read(dest, id, key) != Some(v))
    ensures r.Ok? && Wf(dest) ==> Wf(r.value)
  {
    match IndexOf(dest.rows, id)
    case None => Ok(dest)
    case Some(i) =>
      if key !in dest.keys then Err(MissingProperty(id, key))
      else if Differs(ValueAt(dest.rows[i], key), v) then
        var d := SetCell(dest, i, key, v);
        assert KeySet(dest) == set k | k in dest.keys;
        forall id', key' ensures Read(d, id', key') ==
          if IndexOf(dest.rows, id') == Some(i) && key' == key then Some(v) else Read(dest, id', key')
        {
          ReadAfterSetCell(dest, i, key, v, id', key');
        }
        assert d.rows[i] != dest.rows[i] by {
          assert ValueAt(d.rows[i], key) == v;
        }
        Ok(d)
      else
        Ok(dest)
  }

  /** The echo of a propagated write back through the same synchronizer is a
      no-op: this is what ends the view -> source -> view round trip. */
  lemma EchoIsNoOp(dest: Container, id: Id, key: Key, v: Value)
    requires Propagate(dest, id, key, v).Ok?
    ensures Propagate(Propagate(dest, id, key, v).value, id, key, v) == Propagate(dest, id, key, v)
  {
    var d := Propagate(dest, id, key, v).value;
    assert Ids(d.rows) == Ids(dest.rows);
    assert HasItem(d.rows, id) <==> HasItem(dest.rows, id) by {
      IndexOfSameIds(d.rows, dest.rows, id);
    }
  }

  /** Two nulls are equal, a null and a present value are not, and an item
      the destination lacks makes the event a no-op. */
  lemma NullSafeCases(dest: Container, id: Id, key: Key, payload: int)
    requires HasItem(dest.rows, id) && key in dest.keys
    ensures Read(dest, id, key) == Some(Null) ==> Propagate(dest, id, key, Null) == Ok(dest)
    ensures Read(dest, id, key) == Some(Null) ==> Propagate(dest, id, key, Obj(payload)) != Ok(dest)
    ensures Read(dest, id, key) == Some(Obj(payload)) ==> Propagate(dest, id, key, Null) != Ok(dest)
  {
  }
}

=== FILE: text.dfy ===
/** The string handling of the pagination bar: Java's `trim`, the decimal
    form of an `int`, and the parse of the "go to page" text. */
module Text {
  import opened Base

  predicate IsDigit(c: char) { '0' <= c <= '9' }

  function DigitValue(c: char): nat
    requires IsDigit(c)
  {
    (c as int) - ('0' as int)
  }

  function DigitChar(d: nat): (c: char)
    requires d < 10
    ensures IsDigit(c) && DigitValue(c) == d
  {
    (('0' as int) + d) as char
  }

  predicate AllDigits(s: string) { forall i :: 0 <= i < |s| ==> IsDigit(s[i]) }

  predicate HasDigit(s: string) { exists i :: 0 <= i < |s| && IsDigit(s[i]) }

  /** `String.trim` drops leading characters up to U+0020 ... */
  function TrimLeft(s: string): (r: string)
    ensures |r| <= |s|
    ensures |r| > 0 ==> r[0] > ' '
    ensures forall i :: 0 <= i < |s| - |r| ==> s[i] <= ' '
  {
    if |s| == 0 || s[0] > ' ' then s
    else
      var r := TrimLeft(s[1..]);
      assert forall i :: 1 <= i < |s| ==> s[i] == s[1..][i - 1];
      r
  }

  /** What is left is a suffix of the text.  Kept out of TrimLeft's own
      contract: an equation between a text and a suffix of itself sets the
      solver's sequence axioms running in circles. */
  lemma {:induction false} TrimLeftIsSuffix(s: string)
    ensures TrimLeft(s) == s[|s| - |TrimLeft(s)|..]
  {
    if |s| > 0 && s[0] <= ' ' {
      TrimLeftIsSuffix(s[1..]);
      assert s[1..][|s| - 1 - |TrimLeft(s[1..])|..] == s[|s| - |TrimLeft(s)|..];
    }
  }

  /** ... and trailing ones. */
  function TrimRight(s: string): (r: string)
    ensures |r| <= |s| && r == s[..|r|]
    ensures |r| > 0 ==> r[|r| - 1] > ' '
    ensures forall i :: |r| <= i < |s| ==> s[i] <= ' '
  {
    if |s| == 0 || s[|s| - 1] > ' ' then s
    else
      var r := TrimRight(s[..|s| - 1]);
      assert forall i :: 0 <= i < |s| - 1 ==> s[i] == s[..|s| - 1][i];
      r
  }

  function Trim(s: string): string { TrimRight(TrimLeft(s)) }

  /** A string that starts and ends with a visible character is its own trim. */
  lemma TrimVisible(s: string)
    requires |s| > 0 && s[0] > ' ' && s[|s| - 1] > ' '
    ensures Trim(s) == s
  {
  }

  /** The longest prefix made of ASCII digits: the first piece of
      `split("[^0-9]")` whenever the string holds any character at all. */
  function LeadingDigits(s: string): (r: string)
    ensures |r| <= |s| && r == s[..|r|]
    ensures AllDigits(r)
    ensures |r| < |s| ==> !IsDigit(s[|r|])
  {
    if |s| == 0 || !IsDigit(s[0]) then []
    else
      var rest := LeadingDigits(s[1..]);
      assert s[1..][..|rest|] == s[1..|rest| + 1];
      [s[0]] + rest
  }

  /** The value of a run of decimal digits. */
  function DigitsValue(s: string): nat
    requires AllDigits(s)
  {
    if |s| == 0 then 0 else DigitsValue(s[..|s| - 1]) * 10 + DigitValue(s[|s| - 1])
  }

  /** `Integer.toString` of a non-negative number: no leading zero, and its
      digits read back as the number. */
  function NatToString(n: nat): (r: string)
    ensures |r| >= 1 && AllDigits(r)
    ensures |r| > 1 ==> r[0] != '0'
    ensures DigitsValue(r) == n
  {
    if n < 10 then [DigitChar(n)]
    else
      var prefix := NatToString(n / 10);
      var r := prefix + [DigitChar(n % 10)];
      assert r[..|r| - 1] == prefix;
      r
  }

  /** Java's decimal form of an `int`. */
  function IntToString(i: int): (r: string)
    ensures |r| >= 1 && IsDigit(r[|r| - 1])
    ensures i >= 0 ==> r == NatToString(i)
  {
    if i < 0 then "-" + NatToString(-i) else NatToString(i)
  }

  /** The digit run is cut off at the first non-digit after it. */
  lemma {:induction false} LeadingDigitsOfJoin(a: string, b: string)
    requires AllDigits(a)
    requires |b| == 0 || !IsDigit(b[0])
    ensures LeadingDigits(a + b) == a
    decreases |a|
  {
    if |a| > 0 {
      LeadingDigitsOfJoin(a[1..], b);
      assert (a + b)[1..] == a[1..] + b;
      assert a == [a[0]] + a[1..];
    }
  }

  /** `parsePageToGoText` as written: the first piece of the trimmed text
      split at non-digits, trimmed and parsed as a Java int, with only the
      number-format failure caught.  A leading digit run parses
      (falling back to `current` past Integer.MAX_VALUE); an empty text, or
      one starting with a non-digit but holding a digit later, splits to an
      empty first piece whose parse fails; a non-empty text without any
      digit splits to an EMPTY array (split drops trailing empty strings),
      and indexing it throws ArrayIndexOutOfBoundsException, which escapes. */
  function ParsePageTextAsWritten(text: string, current: int): (r: Result<int>)
    ensures r.Err? <==> |Trim(text)| > 0 && !HasDigit(Trim(text))
    ensures r.Err? ==> r.fault == EmptySplit
  {
    var t := Trim(text);
    var d := LeadingDigits(t);
    if |d| > 0 then
      Ok(if DigitsValue(d) <= MaxInt then DigitsValue(d) else current)
    else if |t| == 0 || HasDigit(t) then Ok(current)
    else Err(EmptySplit)
  }

  /** The same parse with every malformed text answered by `current`, which
      is what the catch clause evidently intends. */
  function ParsePageToGoText(text: string, current: int): (r: int)
    ensures r == current || (0 <= r <= MaxInt && r == DigitsValue(LeadingDigits(Trim(text))))
    ensures |LeadingDigits(Trim(text))| == 0 ==> r == current
  {
    var d := LeadingDigits(Trim(text));
    if |d| > 0 && DigitsValue(d) <= MaxInt then DigitsValue(d) else current
  }

  /** A digit run followed by a tail that starts with a non-digit and ends
      with a visible character is its own trim, and its digit run is the run. */
  lemma DigitsThenTailShape(digits: string, tail: string)
    requires |digits| > 0 && AllDigits(digits)
    requires |tail| > 0 && !IsDigit(tail[0]) && tail[|tail| - 1] > ' '
    ensures Trim(digits + tail) == digits + tail
    ensures LeadingDigits(digits + tail) == digits
  {
    var s := digits + tail;
    assert IsDigit(s[0]) && s[|s| - 1] == tail[|tail| - 1];
    TrimVisible(s);
    LeadingDigitsOfJoin(digits, tail);
  }

  /** A text whose trimmed form starts with an in-range digit run parses to
      that run's value, both ways. */
  lemma ParseLeadingRun(text: string, current: int)
    requires |LeadingDigits(Trim(text))| > 0 && DigitsValue(LeadingDigits(Trim(text))) <= MaxInt
    ensures ParsePageTextAsWritten(text, current) == Ok(DigitsValue(LeadingDigits(Trim(text))))
    ensures ParsePageToGoText(text, current) == DigitsValue(LeadingDigits(Trim(text)))
  {
  }

  /** The decimal text of an in-range number parses back to it, both ways. */
  lemma NatTextParses(n: nat, current: int)
    requires n <= MaxInt
    ensures ParsePageTextAsWritten(NatToString(n), current) == Ok(n)
    ensures ParsePageToGoText(NatToString(n), current) == n
  {
    var digits := NatToString(n);
    TrimVisible(digits);
    LeadingDigitsOfJoin(digits, []);
    assert digits + [] == digits;
    ParseLeadingRun(digits, current);
  }

  /** A digit run followed by a tail that starts with a non-digit and ends
      with a visible character parses to the run's value, both ways. */
  lemma ParseDigitsThenTail(digits: string, tail: string, current: int)
    requires |digits| > 0 && AllDigits(digits) && DigitsValue(digits) <= MaxInt
    requires |tail| > 0 && !IsDigit(tail[0]) && tail[|tail| - 1] > ' '
    ensures ParsePageTextAsWritten(digits + tail, current) == Ok(DigitsValue(digits))
    ensures ParsePageToGoText(digits + tail, current) == DigitsValue(digits)
  {
    DigitsThenTailShape(digits, tail);
    ParseLeadingRun(digits + tail, current);
  }

  /** Wherever the parse as written returns, the corrected parse agrees. */
  lemma CorrectedParseAgrees(text: string, current: int)
    requires ParsePageTextAsWritten(text, current).Ok?
    ensures ParsePageToGoText(text, current) == ParsePageTextAsWritten(text, current).value
  {
  }

  /** The input that shows the defect: "abc" makes the parse as written
      throw, while the corrected parse keeps the current page. */
  lemma NoDigitTextThrows()
    ensures ParsePageTextAsWritten("abc", 7) == Err(EmptySplit)
    ensures ParsePageToGoText("abc", 7) == 7
  {
    assert Trim("abc") == "abc" by { TrimVisible("abc"); }
    assert !HasDigit("abc") by {
      assert forall i :: 0 <= i < 3 ==> !IsDigit("abc"[i]);
    }
    assert LeadingDigits("abc") == [];
  }
}

=== FILE: window.dfy ===
/** Page arithmetic of the page-window engine: how many pages a source of a
    given size has, which positions a zero-based page covers, and which page
    numbers are accepted. */
module Window {
  import opened Base

  /** `getNumberOfPages`: one page for a non-positive page size or an empty
      source, otherwise the ceiling of size / itemsPerPage. */
  function NumberOfPages(size: nat, itemsPerPage: int): (n: int)
    ensures n >= 1
    ensures itemsPerPage <= 0 || size == 0 ==> n == 1
    ensures itemsPerPage > 0 && size > 0 ==> (n - 1) * itemsPerPage < size <= n * itemsPerPage
  {
    if itemsPerPage <= 0 || size == 0 then 1
    else
      var q, r := size / itemsPerPage, size % itemsPerPage;
      assert size == q * itemsPerPage + r && 0 <= r < itemsPerPage;
      if r > 0 then
        assert (q + 1) * itemsPerPage == q * itemsPerPage + itemsPerPage;
        q + 1
      else
        assert q >= 1;
        assert (q - 1) * itemsPerPage == q * itemsPerPage - itemsPerPage;
        q
  }

  /** The ceiling of size / itemsPerPage written the other common way, as an
      independent reference for the page count. */
  function CeilPages(size: nat, itemsPerPage: int): int
    requires itemsPerPage > 0
  {
    (size + itemsPerPage - 1) / itemsPerPage
  }

  lemma MulMonotone(x: int, y: int, k: int)
    requires x <= y && k > 0
    ensures x * k <= y * k
  {
    assert y * k - x * k == (y - x) * k;
  }

  /** At most one page count n satisfies (n - 1) * k < size <= n * k. */
  lemma CeilingUnique(size: nat, k: int, a: int, b: int)
    requires k > 0
    requires (a - 1) * k < size <= a * k
    requires (b - 1) * k < size <= b * k
    ensures a == b
  {
    if a < b {
      MulMonotone(a, b - 1, k);
    } else if b < a {
      MulMonotone(b, a - 1, k);
    }
  }

  lemma NumberOfPagesIsCeiling(size: nat, itemsPerPage: int)
    requires itemsPerPage > 0 && size > 0
    ensures NumberOfPages(size, itemsPerPage) == CeilPages(size, itemsPerPage)
  {
    var k := itemsPerPage;
    var c := CeilPages(size, k);
    var m := size + k - 1;
    assert m == c * k + m % k && 0 <= m % k < k;
    assert (c - 1) * k == c * k - k;
    assert (c - 1) * k < size <= c * k;
    CeilingUnique(size, k, NumberOfPages(size, k), c);
  }

  /** `isPageAvailable` on a zero-based page: there is no lower bound. */
  predicate IsPageAvailable(page: int, size: nat, itemsPerPage: int) {
    page < NumberOfPages(size, itemsPerPage)
  }

  /** `firstRowIdx`: the first position of a zero-based page. */
  function FirstRowIdx(page: int, itemsPerPage: int): int {
    page * itemsPerPage
  }

  /** `lastRowIdx`: one past the last position of a zero-based page. */
  function LastRowIdx(page: int, itemsPerPage: int, size: nat): int {
    Min((page + 1) * itemsPerPage, size)
  }

  /** An available non-negative page with a positive page size covers a
      window inside the source holding min(itemsPerPage, size - first) rows;
      it is empty only for the single page of an empty source. */
  lemma ValidPageWindow(page: int, size: nat, itemsPerPage: int)
    requires 0 <= page && IsPageAvailable(page, size, itemsPerPage) && itemsPerPage > 0
    ensures 0 <= FirstRowIdx(page, itemsPerPage) <= LastRowIdx(page, itemsPerPage, size) <= size
    ensures LastRowIdx(page, itemsPerPage, size) - FirstRowIdx(page, itemsPerPage)
         == Min(itemsPerPage, size - FirstRowIdx(page, itemsPerPage))
    ensures size > 0 ==> FirstRowIdx(page, itemsPerPage) < LastRowIdx(page, itemsPerPage, size)
  {
    var n := NumberOfPages(size, itemsPerPage);
    var k := itemsPerPage;
    var first := page * k;
    assert (page + 1) * k == first + k;
    assert 0 <= first by { MulMonotone(0, page, k); }
    if size > 0 {
      MulMonotone(page, n - 1, k);
      assert first < size;
    } else {
      assert page == 0;
    }
  }

  /** For a non-negative page the window never starts before position 0
      unless it is empty (a negative page size makes every such window empty). */
  lemma NonNegativePageWindow(page: int, itemsPerPage: int, size: nat)
    requires 0 <= page
    ensures FirstRowIdx(page, itemsPerPage) < 0 ==>
      LastRowIdx(page, itemsPerPage, size) <= FirstRowIdx(page, itemsPerPage)
  {
    var k := itemsPerPage;
    assert (page + 1) * k == page * k + k;
    if k > 0 { MulMonotone(0, page, k); }
  }

  /** With a non-positive page size the only available non-negative page is
      page 0, and its window is empty. */
  lemma NonPositivePageSizeWindow(page: int, size: nat, itemsPerPage: int)
    requires 0 <= page && IsPageAvailable(page, size, itemsPerPage) && itemsPerPage <= 0
    ensures page == 0
    ensures FirstRowIdx(page, itemsPerPage) == 0 && LastRowIdx(page, itemsPerPage, size) <= 0
  {
  }

  /** A page past the end has a window starting at or after the end of the source. */
  lemma PastLastPageStartsPastEnd(page: int, size: nat, itemsPerPage: int)
    requires itemsPerPage > 0 && !IsPageAvailable(page, size, itemsPerPage)
    ensures size <= FirstRowIdx(page, itemsPerPage)
    ensures LastRowIdx(page, itemsPerPage, size) <= FirstRowIdx(page, itemsPerPage)
  {
    var n := NumberOfPages(size, itemsPerPage);
    var k := itemsPerPage;
    assert n * k <= page * k;
    assert (page + 1) * k == page * k + k;
  }
}
